=== FILE: README.md ===
# Library API and its web front end, in Dafny

This project models the decision logic of a small library system. A Go REST
API keeps authors, books, subscribers and a borrow log in MySQL. A Flask
backend-for-frontend (the BFF) serves the web forms and calls that API.

The model covers four pieces:

- **The API's handlers** (`api/main.go`, with the earlier `api/server_API.go`
  and the prototype `server_API.go` as the `Earlier` and `Prototype`
  variants). They are pure functions from a request and a `Store` to an
  `Outcome`: a status, a body and the store afterwards. The store has one map
  per table, the borrow log as a sequence, and the AUTO_INCREMENT counters.
  A failing SQL statement is the parameter `fault`: the index, in execution
  order, of the statement that errors. The model therefore also covers
  partial writes.
- **Photo uploads and their paths** (`AddAuthorPhoto`, `AddBookPhoto`, and
  `filepath.Ext`).
- **Sessions and the credential gate** (`api/auth.go`): the session store,
  `VerifySessionToken`, sign-up, login, and the shape of the session token
  (URL-safe base64 of 32 bytes).
- **The BFF** (`bff/main.py`, `bff/auth.py`):
  - `validate_body_length`;
  - the create, update and delete views;
  - sign-up, login and logout.

  Each view is a function from the method, the form and the upstream's
  scripted replies to an `Exchange`: the response and the calls it sent
  upstream, in order.

The `Integration` module joins the two halves. It turns API outcomes into the
replies the BFF reads and follows a request end to end.

Decisions worth knowing:

- **Rows affected.** The driver reports *changed* rows, which is
  go-sql-driver/mysql's default. An update that rewrites a row with its own
  values therefore reports 0 rows and is answered 404, the same as a missing
  id.
- **Number parsing.** `ParseInt` is `strconv.Atoi` on a 64-bit platform.
  `IntToString` is both `strconv.Itoa` and Python's `str` of an int.
- **Plain-text bodies.** A Go `http.Error` body is plain text, so it is not
  JSON to `response.json()`. The same holds for the upload handlers' success
  text. Python's `requests` is taken to be version 2.27 or later, where a
  JSON decoding failure is a `RequestException`.
- **Upstream script.** A call past the end of the script stands for an
  upstream that cannot be reached.
- **Lengths.** Form lengths count characters, as Python's `len` on `str`
  does.
- **Failed photo uploads.** After a failed photo upload, the BFF answers 500
  and sends no DELETE for the author or book it has just created. Only the TODO
  comments at bff/main.py:249 and bff/main.py:267 mention a compensating
  delete. `Frontend.AddAuthor` and `Frontend.AddBook` state that no DELETE is
  ever sent.
- **Sessions.** The BFF's only gate is `login_required`, imported at
  bff/main.py:6 but not defined in bff/auth.py; what it checks is not known
  from the code here, and it is not modelled.

## Model

| member | source | states |
|---|---|---|
| Decimal.ParseIntOfIntToString | api/main.go:572 | reading an id back with Atoi gives the number Itoa wrote, for every 64-bit integer |
| Decimal.IntToStringInjective | api/main.go:589 | distinct 64-bit integers have distinct decimal texts |
| Decimal.IntToStringHasNoSeparator | api/main.go:589 | the decimal text of an id never contains '/' |
| Decimal.ParseInt | api/main.go:572 | Atoi accepts only an optional sign and digits, and its value fits 64 bits |
| Decimal.IntToString | api/main.go:589 | Itoa writes a leading minus exactly for a negative number, and digits otherwise |
| Catalog.AddAuthor | api/main.go:628-673 | non-POST is 405; missing names are 400 with no write; otherwise 201 (200 in the earlier API) exactly when the insert succeeds; the new row takes the next id; the current API stores "" as the photo and the earlier one the client's; nothing else changes |
| Catalog.AddBook | api/main.go:732-771 | a missing title or author_id 0 is 400 with no write; otherwise 201 (200 earlier) exactly when the insert succeeds; one new row under the next id; the earlier API stores is_borrowed as false |
| Catalog.AddSubscriber | api/main.go:773-821 | a missing first name, last name or email is 400 with no write; 200 exactly when the insert succeeds; one new row under the next id and nothing else changes |
| Catalog.UpdateGate | api/main.go:925-935 | the update handlers stop with 405 for a method other than PUT or POST, and with 400 for a non-numeric id; they go on exactly when neither applies |
| Catalog.UpdateAuthor | api/main.go:923-969 | 200 exactly when the id is numeric, the names are present, the UPDATE does not fail, and the row exists and changes; then only that row is overwritten; every other answer leaves the store alone |
| Catalog.UpdateBook | api/main.go:973-1038 | the same rule for books, with every column, the borrowed flag included, overwritten |
| Catalog.UpdateSubscriber | api/main.go:1041-1100 | the same rule for subscribers |
| Catalog.DeleteGate | api/main.go:1106-1117 | the delete handlers stop with 405 for a method other than DELETE, and with 400 for a non-numeric id |
| Catalog.DeleteAuthor | api/main.go:1103-1163 | 400 exactly when the id is not numeric or the author still has a book; 404 exactly when there are no books and no such author; 200 removes only that author; nothing changes otherwise |
| Catalog.DeleteBook | api/main.go:1166-1249 | 200 exactly when the book exists and the statements up to its delete succeed (the author delete may fail only if other books remain); the book is removed, and its author too exactly when no other book names it |
| Catalog.DeleteSubscriber | api/main.go:1252-1291 | 404 exactly when no such subscriber; 200 removes only that subscriber and leaves the borrow log alone |
| Borrowing.BorrowBook | api/main.go:823-876 | non-POST is 405; in the current API a zero id is 400 before any read; a flagged book is 409 with no write; 201 exactly when the book exists, is free and all three statements succeed, and then exactly one open borrow row is appended and only that book's flag set; a failing flag update leaves the row written and answers 500 |
| Borrowing.ReturnBorrowedBook | api/main.go:878-921 | a missing or unflagged book is 404 with no change; 200 stamps the return date on exactly this subscriber's rows for the book and clears the flag; nothing else changes |
| Borrowing.SecondBorrowConflicts | api/main.go:852-855 | once a book is lent, a second borrow of it by anyone is 409 and changes nothing |
| Borrowing.BorrowThenReturn | api/main.go:898-919 | borrowing and then returning by the same subscriber restores the flag and leaves no open loan for that pair |
| Borrowing.ReturnByStrangerClearsFlag | api/main.go:898-919 | a return naming another subscriber is still 200 and clears the flag, while the real loan stays open |
| Borrowing.BorrowVariantsAgree | api/server_API.go:474-520 | the earlier and prototype BorrowBook agree on every request, bodies included; when no id is zero, the current one agrees with them on status and store, and its body differs only on 201 (the JSON {"message": ...} against plain text) and on 500 (the driver's error after "Database error: " against the bare error) |
| Borrowing.FailedFlagLeavesOrphanLoan | api/main.go:858-870 | when the flag update fails, the answer is 500 but an open borrow row remains for a book that still reads as free |
| Lookup.GetBookByID | api/main.go:427-481 | never writes; a non-numeric id is 400; 200 exactly when the book and its author exist, with the joined row's fields; 404 for no row |
| Lookup.GetBooksById | server_API.go:253-303 | the prototype never answers 400; 200 exactly when the database's reading of the id matches a joined row, and then it answers that book |
| Lookup.LookupVariantsAgree | server_API.go:253-303 | when the database reads the id as Atoi does, the prototype and the later handler answer identically |
| Lookup.AddedBookReadsBack | api/main.go:732-771 | a book added for an existing author reads back under its new id with the stored fields and the author's names |
| Invariants.DeleteAuthorKeepsIntegrity | api/main.go:1128-1138 | if every book names an existing author before DeleteAuthor, that holds afterwards, whatever statement fails |
| Invariants.DeleteBookKeepsIntegrity | api/main.go:1191-1245 | the same for DeleteBook, whatever statement fails |
| Invariants.DeleteSubscriberKeepsIntegrity | api/main.go:1252-1291 | the same for DeleteSubscriber |
| Invariants.BookWritesKeepIntegrityIffAuthorExists | api/main.go:747-759 | after a successful add or update of a book, every book names an existing author exactly when the author the body names exists |
| Invariants.AddAuthorKeepsIdsIssued | api/main.go:654-665 | AddAuthor keeps ids below the counter, and a returned id was unused before and is used after |
| Invariants.AddBookKeepsIdsIssued | api/main.go:752-765 | the same for AddBook |
| Invariants.AddSubscriberKeepsIdsIssued | api/main.go:796-815 | the same for AddSubscriber |
| Invariants.DeleteBookCascade | api/main.go:1191-1245 | after a successful DeleteBook, the book's author remains exactly when it existed and another book names it |
| Invariants.DeleteBookNeverNotFound | api/main.go:1191-1230 | DeleteBook never answers 404; a missing book is 500 |
| Invariants.RepeatedUpdateIsNotFound | api/main.go:955-966 | sending the same author update twice makes the second one 404 with no change, although the row exists |
| Invariants.RepeatedSubscriberUpdateIsNotFound | api/main.go:1080-1097 | sending the same subscriber update twice: the first stores the body, the second changes no row and is answered 404 |
| Invariants.UpdateSubscriberKeepsInvariants | api/main.go:1041-1100 | UpdateSubscriber keeps the id bookkeeping, the books' references and the set of subscriber ids, whatever the outcome |
| Invariants.AddThenDeleteAuthor | api/main.go:1103-1163 | adding an author and deleting it by its new id restores every table; only the counter moves on |
| PhotoPaths.Ext | api/main.go:697 | Ext is a suffix of the path that starts with '.', holds no '/' and no further '.'; it is empty only when every '.' is followed by a '/' |
| PhotoPaths.BookPhotoPath | api/main.go:696-699 | the path is the book's directory followed by "fullsize" and the extension, with no '/' after the directory |
| PhotoPaths.AuthorPhotoPath | api/main.go:586-590 | the author path ignores the client's name and is always ./upload/{id}/fullsize.jpg |
| PhotoPaths.BookPhotoPathExample | api/main_test.go:1573-1574 | test.jpg for book 1 is stored at ./upload/books/1/fullsize.jpg |
| PhotoPaths.BookPhotoDirsDistinct | api/main.go:698-699 | two books with different ids never share a photo path |
| PhotoPaths.AuthorAndBookPhotosDisjoint | api/main.go:589-590 | an author's photo path is never a book's |
| Uploads.UploadGate | api/main.go:564-583 | 405 for non-POST, 400 for a non-numeric id, 500 when the file part is missing or the disk write fails, and otherwise no stop |
| Uploads.AddAuthorPhoto | api/main.go:564-626 | 200 exactly when the gate passes and the UPDATE does not fail; then only that author's photo becomes the fixed path |
| Uploads.AddBookPhoto | api/main.go:675-730 | 200 exactly when the gate passes and the UPDATE does not fail; then only that book's photo becomes the path built from the client's extension |
| Uploads.UploadForMissingBookSucceeds | api/main.go:718-727 | an upload for a book that does not exist is 200 and changes no row |
| Uploads.BookUploadsDoNotCollide | api/main.go:696-699 | two successful uploads for different book ids report different files |
| Sessions.Add | api/auth.go:39-43 | the token maps to the new session and every other token keeps its session |
| Sessions.Get | api/auth.go:46-51 | the flag is true exactly when the token is stored; a missing token yields the zero session |
| Sessions.GetAfterAdd | api/auth.go:39-51 | Get after Add of a token returns that session and true |
| Sessions.AddOverwrites | api/auth.go:39-43 | a second Add under one token keeps only the second session |
| Sessions.GetNeverAdded | api/auth.go:46-51 | a token never added is not found, whatever else is added |
| Sessions.VerifySessionToken | api/auth.go:235-282 | no cookie is 401, another cookie error 400, an unknown token 401 "Invalid session token"; an expiry strictly before now is 401 "Session expired"; the request goes through exactly when the stored session's expiry is at or after now |
| Sessions.GenerateSessionToken | api/auth.go:284-291 | a token exists exactly when the random source succeeds; it is 44 characters of the URL-safe alphabet, ending in exactly one '=' |
| Sessions.TokensDistinct | api/auth.go:284-291 | different random bytes give different tokens |
| Base64Url.Encode | api/auth.go:290 | four characters per started group of three bytes, each from the alphabet or padding |
| Base64Url.EncodeSinglePad | api/auth.go:290 | a length two more than a multiple of three ends in exactly one '=' |
| Base64Url.DecodeEncode | api/auth.go:290 | decoding the encoding gives back the bytes |
| Base64Url.EncodeInjective | api/auth.go:290 | different byte strings encode differently |
| Accounts.SignupUser | api/auth.go:67-143 | 400 exactly when the body does not decode or fails validation; 409 exactly when the address is taken; 201 exactly when it is new and the hash and insert succeed, adding exactly that user under the next id; any other answer leaves the accounts alone |
| Accounts.IssueSession | api/auth.go:205-232 | 200 exactly when token generation succeeds; then the token is returned with the user's id and exactly one session expiring a day later is added |
| Accounts.LoginUser | api/auth.go:145-233 | 400 exactly when the body is not JSON, the credentials are invalid, or the user exists and bcrypt reports a mismatch; 500 exactly when the read fails or a matched user gets no token; 404 exactly when the address is unknown; 200 exactly when the user exists, bcrypt did not report a mismatch and a token was made; then exactly one session for that user's id, expiring 1440 minutes later, is added and its 44-character token returned |
| Accounts.LoginUserStrict | api/auth.go:195-203 | the corrected login: 200 exactly when bcrypt confirms the password; a failed comparison never adds a session |
| Accounts.LoginUserAcceptsUncheckedPassword | api/auth.go:196-203 | when bcrypt fails with an error other than a mismatch, the login as written answers 200, and the corrected one answers 500 |
| Accounts.LoginVariantsAgreeOnVerdicts | api/auth.go:196-203 | whenever bcrypt gives a verdict (match or mismatch), the login as written and the corrected one agree entirely |
| Accounts.LoginKeepsTokensWellFormed | api/auth.go:216-222 | logins keep every stored token 44 characters long |
| Accounts.EmptyTokenRejected | api/auth.go:260-268 | the empty token never passes the gate |
| Accounts.LoginThenVerify | api/auth.go:216-222 | a token from a successful login passes the gate exactly until a day after the login |
| Accounts.SecondSignupConflicts | api/auth.go:108-114 | signing up the same address twice: the second is 409 and changes nothing |
| Accounts.ValidCredentials | api/auth.go:84-86 | credentials pass validation only with an address containing '@' (one of the three provider domains) and a non-empty password |
| Accounts.ExistingUserId | api/auth.go:96-113 | the lookup gives a non-zero id only for a registered address |
| Accounts.RegisteredIffNonzeroId | api/auth.go:108-114 | with ids issued from 1, the "existingUserID != 0" test holds exactly for a registered address |
| Accounts.SignupKeepsUserIdsIssued | api/auth.go:126-128 | sign-up keeps every user id at least 1 and below the next id |
| Forms.FormGet | bff/main.py:188-189 | request.form.get is None exactly when no pair has the name; otherwise it is the value of the first pair with that name |
| Forms.ToDict | bff/main.py:29 | one entry per name, holding the first value sent under it, and every name sent has an entry |
| Forms.FirstOverLimit | bff/main.py:32-35 | the first field, in order, strictly over its limit; None exactly when no field is |
| Forms.DictVerdict | bff/main.py:30-38 | no error exactly when no field is strictly over its limit and the total of all values, limited or not, is at most the maximum; when a field is over, the error names the first such field with its limit |
| Forms.BodyLengthVerdict | bff/main.py:21-42 | methods other than POST and PUT always pass; for those two, the request passes exactly when the form's dict has no field over its limit and a total within the maximum |
| Forms.CheckFields | bff/main.py:30-38 | the decorator's loop, stopping at the first field over its limit and summing every value, computes the verdict |
| Forms.ValidateBodyLength | bff/main.py:27-40 | the decorator checks only POST and PUT, on the form's dict |
| Forms.RepeatedFieldIgnored | bff/main.py:29 | sending a field again does not change the verdict: only each name's first value is measured |
| Forms.FormGetIgnoresRepeat | bff/main.py:188-189 | sending a field again does not change what request.form.get reads for any name |
| Frontend.DocGet | bff/main.py:245 | response.json().get yields a value exactly when the body is a JSON object: the field, or else the default |
| Frontend.Guarded | bff/main.py:27-40 | a form the length check refuses is answered 400 with success false and the view never runs; otherwise the view's answer is returned unchanged |
| Frontend.PostAuthor | bff/main.py:218-278 | a missing file part is a 500 with no call (the debug-mode server of bff/main.py:460); otherwise a redirect to the author list exactly when the create returned 201 with a non-zero id and any chosen photo was accepted with 200, and every other outcome is a 500 JSON error; the photo is posted, always second, to /author/photo/{id} exactly when the create succeeded and a file was chosen |
| Frontend.AddAuthor | bff/main.py:214-280 | GET renders the form; other methods are 405; a refused form is 400 with no call; otherwise the POST branch; no DELETE is ever sent |
| Frontend.BookPayload | bff/main.py:294-306 | the book document carries the given author and photo, and is_borrowed is true exactly when the form's value is "on" |
| Frontend.PostBook | bff/main.py:293-337 | a missing file part (under the debug-mode server) or an unreadable author field is a 500 before any call; a redirect to the index exactly when the create raised no error status, answered a dict with a truthy id, and any chosen photo was accepted with 200; every other outcome is 500; the photo goes to /books/photo/{id} |
| Frontend.AddBook | bff/main.py:289-346 | GET fetches the authors and renders the form; other methods are 405; a refused form is 400 with no call; no DELETE is ever sent |
| Frontend.AddSubscriber | bff/main.py:365-394 | GET renders the form; other methods are 405; a form refused by the 40-character limit is 400 with the length error and no call; a passing form sends one create call and redirects to the subscriber list exactly when it answered 200, otherwise 500 |
| Frontend.UpdatedPhoto | bff/main.py:192-198 | with a chosen file the photo becomes the prefix plus the sanitised name; otherwise existing_photo is carried over unchanged |
| Frontend.UpdateAuthor | bff/main.py:183-212 | a form refused by the 40-character limit is 400 with the length error and no call; otherwise one PUT to /authors/{id}; 200 upstream is success true; any other status is 400 "Error updating author"; a transport failure is 500 |
| Frontend.UpdateBook | bff/main.py:415-448 | a form refused by the book limits is 400 with the length error and no call; a missing file part or unreadable author is 500 with no call; one PUT to /books/{id}; 200 redirects to the book's page; any other status is 400 "Error updating book" |
| Frontend.Remove | bff/main.py:148-154 | exactly one DELETE; success true exactly when the upstream answered 200; any other status is 400, and a transport failure 500 |
| Frontend.DeleteAuthor | bff/main.py:145-154 | one DELETE to /authors/{id}; success exactly on 200 |
| Frontend.DeleteBook | bff/main.py:156-165 | one DELETE to /books/{id}; success exactly on 200 |
| Frontend.PostBookWithoutPhoto | bff/main.py:308-333 | with no photo chosen and an accepted create, add_book sends exactly the create, carrying the form's fields and an empty photo, and redirects to the index |
| Frontend.PhotoFailureNeverRedirects | bff/main.py:263-268 | when a photo was chosen and its upload is not accepted with 200, neither add_author nor add_book redirects |
| Frontend.RejectedPersonFormMakesNoCalls | bff/main.py:28-38 | a form over the person limit (40 characters) is 400 and sends nothing upstream from add_author, add_subscriber and update_author |
| Frontend.RejectedBookFormMakesNoCalls | bff/main.py:28-38 | a form over the book limits (1000 characters, title 50, details 250) is 400 and sends nothing upstream from add_book and update_book |
| FrontendAuth.Signup | bff/auth.py:10-43 | GET renders the form; POST sends one call; 201 redirects to login; 400 and 409 re-render with the upstream message; 500 passes the message on; any other status is "An unexpected error occurred" with that status; a body that is not JSON, or no answer, is 500 "Failed to connect to the external API" |
| FrontendAuth.Login | bff/auth.py:45-89 | GET renders the form; 200 with a dict redirects to / and sets the token cookie to expire a day after `now`, the BFF's naive local clock reading written out as UTC; 400 and 404 re-render with the message; 500 is "Internal server error"; no answer is "Failed to connect to the API"; any other status is 500 |
| FrontendAuth.Logout | bff/auth.py:91-95 | redirect to /login, overwriting the token cookie with "" expiring at the epoch, with no upstream call |
| Integration.CreateDoc | api/main.go:662-672 | the body the BFF reads is a JSON object exactly when the handler wrote a new id or a JSON message, and a new id is read back as {"id": n} |
| Integration.LoginDoc | api/auth.go:225-232 | the login reply always carries a message, and a token exactly when one was issued |
| Integration.CreateAuthorThenUpload | api/main.go:564-673 | creating an author and uploading its photo under the new id answers 201 then 200 and records the fixed photo path on that row |
| Integration.AuthorRedirectAfterUpload | bff/main.py:242-270 | a 201 create with a non-zero id followed by an accepted upload ends in the author-list redirect, and the upload went to that id |
| Integration.AddAuthorEndToEnd | bff/main.py:214-280 | add_author against the current API with a photo: redirect to the author list, the photo posted under the new id, and that author's row holding the photo path |
| Integration.AuthorFailsOnPlainOk | bff/main.py:243-274 | a create answered 200 instead of 201 is treated as a failure and nothing more is sent |
| Integration.AddAuthorAgainstEarlierApi | api/server_API.go:368-415 | against the earlier API, which answers 200, the author is stored but add_author reports 500 and sends no photo |
| Integration.BookCreateAccepted | api/main.go:766-769 | a complete book created by the current or the earlier API is answered with no error status and a JSON object holding the new, non-zero id, which add_book accepts |
| Integration.AddBookAgainstEitherApi | bff/main.py:308-333 | add_book without a photo sends one create carrying the form's book and redirects after a create by either the current or the earlier API; the row stored under the next id is the form's book as the API decodes it, with no photo, and the earlier API also clears its borrowed flag |
| Integration.UpdateAuthorAgainstApi | bff/main.py:183-212 | update_author against the API's update reports success exactly when the decoded names are present and the author exists and differs, and the row then holds what was sent; otherwise 400 and the store is unchanged |
| Integration.UpdateBookAgainstApi | bff/main.py:415-448 | update_book against the API's update redirects to the book's page exactly when the API could decode the book (author id within Go's int64), the book is complete, and the row exists and differs; the row then holds what was sent; otherwise 400 and the store is unchanged |
| Integration.DecodedBook | api/main.go:58-60 | the API decodes the BFF's book exactly when its author id fits Go's int64, keeping the id and the borrowed flag |
| Integration.AddSubscriberAgainstApi | bff/main.py:368-394 | add_subscriber against the API's insert redirects exactly when the decoded subscriber is complete, and then the subscriber is stored under the next id; otherwise a 500 and no change |
| Integration.DeleteAuthorAgainstApi | bff/main.py:145-154 | delete_author reports success exactly when the API removed the author, which needs the author to exist with no books; otherwise 400 and no change |
| Integration.DeleteBookAgainstApi | bff/main.py:156-165 | delete_book reports success exactly when the book existed, and then the book is gone and its author too when it had no other book; a missing book is the API's 500 and reaches the user as 400 |
| Integration.LoginCookieAndSessionExpiry | bff/auth.py:67-76 | with the API's clock and the BFF's local clock kept apart: the cookie holds the API's token and expires a day after the local stamp; the session passes exactly until a day after the API's stamp; the cookie is live whenever the session passes exactly when the local stamp is not behind the API's, and the session passes for the cookie's whole life exactly when it is not ahead |
| Integration.UnknownUserSeesMessage | bff/auth.py:78-81 | a login for an unknown address re-renders the login form with "User doesn't exist!" |
| Integration.ServeSignup | api/main.go:100-128 | the router for one sign-up call: any path other than the registered one is the plain-text 404 with no account change; on the registered path, SignupUser (api/auth.go:67-143) answers 201 exactly when the credentials are valid, the address is new and hashing worked, stores that user under the next id, and otherwise changes nothing |
| Integration.SignupNeverReachesApi | api/main.go:127 | as written, the router knows only "/singup" while the BFF posts to "/signup" (bff/auth.py:26): every sign-up through the BFF ends in "Failed to connect to the external API" and creates no account |
| Integration.SignupThroughIntendedRoute | bff/auth.py:23-43 | with the route registered as "/signup", sign-up redirects to the login page exactly when the credentials are valid, the address is new and hashing succeeded, and then the address is registered; otherwise no account changes |
| Integration.DuplicateSignupSeesMessage | bff/auth.py:35-37 | with the sign-up route registered as the BFF calls it, signing up a registered address changes no account and re-renders the form with "Email already in use" |
| Integration.LogoutCookieRejected | bff/auth.py:91-95 | the cookie left by logout is empty and expired at the epoch; the next request without it is refused as "Unauthorized access", and the empty value itself never passes the session gate |

## Findings

| source | as written | input that shows it | evidently intended | confidence | as-written member | corrected member |
|---|---|---|---|---|---|---|
| api/auth.go:196-203 | only `bcrypt.ErrMismatchedHashAndPassword` refuses the login; any other comparison error falls through to issuing a session | a user row whose stored hash is not a valid bcrypt hash (bcrypt answers with an error other than a mismatch), with any password | a session only when bcrypt confirms the password; any other comparison error is a 500 | not executed | Accounts.LoginUser (shown by Accounts.LoginUserAcceptsUncheckedPassword) | Accounts.LoginUserStrict |
| api/main.go:127 | the router registers sign-up under "/singup", while the BFF posts to "/signup" (bff/auth.py:26) | any sign-up through the BFF: the router answers its plain-text 404 and the BFF reports "Failed to connect to the external API" | sign-up registered under "/signup" | not executed | Integration.SignupNeverReachesApi (router as written, `Integration.RegisteredSignupPath`) | Integration.SignupThroughIntendedRoute (router with `Integration.IntendedSignupPath`, also used by Integration.DuplicateSignupSeesMessage) |

The rest of the model uses `Accounts.LoginUser` as written, since that is what
the BFF talks to. `Accounts.LoginVariantsAgreeOnVerdicts` shows that the two
differ only on this input. The other sign-up lemmas go through the router with
the intended path.

## Left out

- Routing, `login_required` and the `App` receiver are not modelled; each handler is modelled on its own. The one exception is sign-up, whose route mismatch is under "## Findings". In the BFF, a method a route does not list is answered 405.
- HEAD and OPTIONS, which Flask answers itself on every route, are not modelled; `OtherMethod` stands for a method a route does not accept, such as PATCH.
- Listing and search handlers (GetAllBooks, SearchBooks, GetAuthors, GetAuthorsAndBooks, GetAuthorBooksByID, GetSubscribersByBookID, GetAllSubscribers) and their BFF pages, `book_details`, `update_author_form`, `update_book_form`, `upload_book_photo` and the static routes: these only pass data through.
- File I/O (`photo.save`, `forward_photo`, `os.MkdirAll`, `os.Create`, `io.Copy`) is the parameter `diskOk`. The BFF's upload is assumed to reach the API as the saved file.
- bcrypt, `crypto/rand` and the clock are parameters (`hashed`, `compare`, `entropy`, `now`). `secure_filename` and Python's `int()` are also parameters (`secure`, `pyInt`). The general email regular expression is the predicate `pattern`; only the domain check is spelled out.
- The sessions' mutex is left out: the store is modelled sequentially.
- The texts of caught exceptions (`str(err)`) are the single value `ExceptionText`.
- JSON is modelled without floats. A nested array or object is kept only as its printed form and its size.
- `Forms.Capitalize`: only ASCII letters change case; Python's Unicode case mapping is not modelled.
- Foreign-key constraints are not modelled: the database accepts a book naming a missing author, and deleting an author leaves nothing else to cascade.
- The `LastInsertId` error branch of the create handlers is not modelled: the new id is always the counter's value.
- The error pages of `add_book` and `add_author` read variables that are never bound (`authors`, `resp`). Those paths are modelled as 500 with no redirect, not as the pages they were meant to render.
- `FrontendAuth.Login`: the cookie's value is kept as the JSON value read from the reply. What werkzeug does with a missing token (`None`) is not modelled.
- Frontend.PostAuthor, Frontend.PostBook: a missing `photo` part is modelled as the 500 of the debug-mode server the BFF starts (bff/main.py:460), where Flask re-raises the missing-key error. A server without debug mode would answer 400 instead.
- FrontendAuth.Login: `now` is the BFF host's naive local clock, which werkzeug writes out as UTC. The browser's own clock and its handling of the expiry are not modelled; a cookie counts as live up to and including its expiry second. `Integration.LoginCookieAndSessionExpiry` keeps the API's clock separate.
- Session and cookie times are whole seconds; Go compares nanosecond instants, so the session gate's "expired" boundary is modelled to the second.
- Accounts: users are keyed by the exact address string. MySQL's default collations compare emails without regard to case, so the database may treat "A@gmail.com" and "a@gmail.com" as one user where the model sees two.
- `crop.go`, `http_server.py` and `bff/server.py` are not part of this model.
- Integration.ServeSignup: `App`, which the router's `signupUser` and `loginUser` belong to, is not part of this model; they are taken to be `SignupUser` and `LoginUser` of api/auth.go.
- Borrowing.BorrowBook: the database driver's error text is abstract. The current API's 500 body is `PrefixedDbError("Database error: ")`, the prefix followed by that text, and the older APIs' is `DbError`, the text alone.

=== FILE: accounts.dfy ===
/** Signing up and logging in (SignupUser, LoginUser). The users table is keyed
    by email; bcrypt, the random source and the clock are parameters: `hashed`
    is what bcrypt.GenerateFromPassword returned (None on error), `compare` what
    bcrypt.CompareHashAndPassword returned, `entropy` the 32 random bytes. */
module Accounts {

  import opened Optional
  import opened Http
  import opened Base64Url
  import opened Sessions

  datatype UserRow = UserRow(id: int, passwordHash: string)

  datatype Accounts = Accounts(users: map<string, UserRow>, nextUserId: int, sessions: SessionStore)

  /** The JSON body {"Email": .., "Password": ..}; absent fields decode as "". */
  datatype Credentials = Credentials(email: string, password: string)

  datatype CompareResult = Match | Mismatch | CompareError

  /** The JSON reply: its message, and on login the token and the user's id. */
  datatype AuthReply = AuthReply(status: int, message: string, token: Option<string>, userId: Option<int>)

  datatype AuthOutcome = AuthOutcome(reply: AuthReply, accounts: Accounts)

  function Refuse(status: int, message: string, acc: Accounts): (o: AuthOutcome)
    ensures o.reply.status == status && o.accounts == acc && o.reply.token.None?
  {
    AuthOutcome(AuthReply(status, message, None, None), acc)
  }

  predicate EndsWith(s: string, suffix: string) {
    |suffix| <= |s| && s[|s| - |suffix|..] == suffix
  }

  /** The domain check: the address ends in "@" and one of the three providers. */
  predicate AllowedDomain(email: string) {
    EndsWith(email, "@gmail.com") || EndsWith(email, "@yahoo.com") || EndsWith(email, "@outlook.com")
  }

  /** The validation both handlers run before touching the database; the general
      address pattern is the parameter `pattern`. */
  predicate ValidCredentials(pattern: string -> bool, c: Credentials): (ok: bool)
    ensures ok ==> '@' in c.email && c.password != ""
  {
    if !AllowedDomain(c.email) then false
    else
      DomainHasAtSign(c.email);
      pattern(c.email) && c.password != "" && c.email != ""
  }

  /** Each allowed domain starts with '@'. */
  lemma DomainHasAtSign(email: string)
    requires AllowedDomain(email)
    ensures '@' in email
  {
    var n := |email|;
    if EndsWith(email, "@outlook.com") {
      assert email[n - 12] == email[n - 12..][0];
    } else {
      assert email[n - 10] == email[n - 10..][0];
    }
  }

  /** The id the "SELECT id FROM users WHERE email = ?" scan leaves behind: the
      row's id, or 0 when there is no row. Matching is on the exact address. */
  function ExistingUserId(acc: Accounts, email: string): (id: int)
    ensures id != 0 ==> email in acc.users
  {
    if email in acc.users then acc.users[email].id else 0
  }

  /** AUTO_INCREMENT bookkeeping for users: ids start at 1 and every stored id
      is below the next one to be issued. */
  predicate UserIdsIssued(acc: Accounts) {
    1 <= acc.nextUserId && forall e :: e in acc.users ==> 1 <= acc.users[e].id < acc.nextUserId
  }

  /** With ids issued from 1, the lookup's id is non-zero exactly for a
      registered address, so the "existingUserID != 0" test is a membership
      test. */
  lemma RegisteredIffNonzeroId(acc: Accounts, email: string)
    requires UserIdsIssued(acc)
    ensures ExistingUserId(acc, email) != 0 <==> email in acc.users
  {
  }

  /** Signing up keeps the id bookkeeping: the new user takes the next id,
      which no user had. */
  lemma SignupKeepsUserIdsIssued(body: Option<Credentials>, pattern: string -> bool, acc: Accounts,
                                 hashed: Option<string>, fault: Option<nat>)
    requires UserIdsIssued(acc)
    ensures UserIdsIssued(SignupUser(body, pattern, acc, hashed, fault).accounts)
  {
  }

  /** SignupUser. Statements: 0 looks the email up, 1 inserts the user. */
  function SignupUser(body: Option<Credentials>, pattern: string -> bool, acc: Accounts,
                      hashed: Option<string>, fault: Option<nat>): (o: AuthOutcome)
    ensures o.reply.status in {Created, BadRequest, Conflict, InternalServerError}
    ensures o.reply.status == BadRequest <==> body.None? || !ValidCredentials(pattern, body.value)
    ensures o.reply.status == Conflict <==>
      body.Some? && ValidCredentials(pattern, body.value) && fault != Some(0) && ExistingUserId(acc, body.value.email) != 0
    ensures o.reply.status == Created <==>
      && body.Some? && ValidCredentials(pattern, body.value) && fault !in {Some(0), Some(1)}
      && ExistingUserId(acc, body.value.email) == 0 && hashed.Some?
    ensures o.reply.status != Created ==> o.accounts == acc
    ensures o.reply.status == Created ==>
      o.accounts == acc.(users := acc.users[body.value.email := UserRow(acc.nextUserId, hashed.value)],
                         nextUserId := acc.nextUserId + 1)
    ensures o.reply.token.None?
  {
    if body.None? then Refuse(BadRequest, "Invalid JSON format", acc)
    else
      var u := body.value;
      if !ValidCredentials(pattern, u) then Refuse(BadRequest, "Invalid email or password", acc)
      // An error other than "no rows" is a database error; "no rows" leaves the id at 0.
      else if fault == Some(0) then Refuse(InternalServerError, "Database error", acc)
      else if ExistingUserId(acc, u.email) != 0 then Refuse(Conflict, "Email already in use", acc)
      else if hashed.None? then Refuse(InternalServerError, "Error hashing password", acc)
      else if fault == Some(1) then Refuse(InternalServerError, "Failed to insert user", acc)
      else
        var id := acc.nextUserId;
        AuthOutcome(AuthReply(Created, "User registered successfully", None, None),
                    acc.(users := acc.users[u.email := UserRow(id, hashed.value)], nextUserId := id + 1))
  }

  /** The part of a login after the password check: issue a token and remember
      the session for a day. */
  function IssueSession(acc: Accounts, userId: int, entropy: Option<seq<byte>>, now: int): (o: AuthOutcome)
    requires entropy.Some? ==> |entropy.value| == 32
    ensures o.reply.status in {OK, InternalServerError}
    ensures o.reply.status == OK <==> entropy.Some?
    ensures o.reply.status != OK ==> o.accounts == acc && o.reply.token.None?
    ensures o.reply.status == OK ==>
      var token := GenerateSessionToken(entropy).value;
      && o.reply.token == Some(token) && o.reply.userId == Some(userId)
      && o.accounts == acc.(sessions := Add(acc.sessions, token, Session(userId, now + SessionLifetime)))
  {
    var token := GenerateSessionToken(entropy);
    if token.None? then Refuse(InternalServerError, "Error generating session token", acc)
    else
      AuthOutcome(AuthReply(OK, "User logged in successfully", token, Some(userId)),
                  acc.(sessions := Add(acc.sessions, token.value, Session(userId, now + SessionLifetime))))
  }

  /** LoginUser as written. Statement 0 reads the user. Only a mismatch reported
      by bcrypt refuses the password: any other comparison error goes on to
      issue a session. */
  function LoginUser(body: Option<Credentials>, pattern: string -> bool, acc: Accounts, compare: CompareResult,
                     entropy: Option<seq<byte>>, now: int, fault: Option<nat>): (o: AuthOutcome)
    requires entropy.Some? ==> |entropy.value| == 32
    ensures o.reply.status in {OK, BadRequest, NotFound, InternalServerError}
    ensures o.reply.status == BadRequest <==>
      || body.None? || !ValidCredentials(pattern, body.value)
      || (fault != Some(0) && body.value.email in acc.users && compare == Mismatch)
    ensures o.reply.status == InternalServerError <==>
      && body.Some? && ValidCredentials(pattern, body.value)
      && (fault == Some(0) || (body.value.email in acc.users && compare != Mismatch && entropy.None?))
    ensures o.reply.status == NotFound <==>
      body.Some? && ValidCredentials(pattern, body.value) && fault != Some(0) && body.value.email !in acc.users
    ensures o.reply.status == OK <==>
      && body.Some? && ValidCredentials(pattern, body.value) && fault != Some(0)
      && body.value.email in acc.users && compare != Mismatch && entropy.Some?
    ensures o.reply.status != OK ==> o.accounts == acc
    ensures o.reply.status == OK ==>
      && o.accounts.users == acc.users && o.accounts.nextUserId == acc.nextUserId
      && o.reply.userId == Some(acc.users[body.value.email].id)
      && o.reply.token.Some? && |o.reply.token.value| == 44
      && o.accounts.sessions == Add(acc.sessions, o.reply.token.value,
                                    Session(acc.users[body.value.email].id, now + SessionLifetime))
  {
    if body.None? then Refuse(BadRequest, "Invalid JSON format", acc)
    else
      var u := body.value;
      if !ValidCredentials(pattern, u) then Refuse(BadRequest, "Invalid email or password", acc)
      else if fault == Some(0) then Refuse(InternalServerError, "Database error", acc)
      else if u.email !in acc.users then Refuse(NotFound, "User doesn't exist!", acc)
      else if compare == Mismatch then Refuse(BadRequest, "Invalid email or password", acc)
      else IssueSession(acc, acc.users[u.email].id, entropy, now)
  }

  /** LoginUser as evidently intended: a session is issued only when bcrypt
      confirms the password; a comparison that fails for any other reason is
      an internal error. */
  function LoginUserStrict(body: Option<Credentials>, pattern: string -> bool, acc: Accounts, compare: CompareResult,
                           entropy: Option<seq<byte>>, now: int, fault: Option<nat>): (o: AuthOutcome)
    requires entropy.Some? ==> |entropy.value| == 32
    ensures o.reply.status == OK <==>
      && body.Some? && ValidCredentials(pattern, body.value) && fault != Some(0)
      && body.value.email in acc.users && compare == Match && entropy.Some?
    ensures o.reply.status != OK ==> o.accounts == acc
    ensures compare != Match ==> o.accounts.sessions == acc.sessions
  {
    if body.None? then Refuse(BadRequest, "Invalid JSON format", acc)
    else
      var u := body.value;
      if !ValidCredentials(pattern, u) then Refuse(BadRequest, "Invalid email or password", acc)
      else if fault == Some(0) then Refuse(InternalServerError, "Database error", acc)
      else if u.email !in acc.users then Refuse(NotFound, "User doesn't exist!", acc)
      else if compare == Mismatch then Refuse(BadRequest, "Invalid email or password", acc)
      else if compare == CompareError then Refuse(InternalServerError, "Error comparing passwords", acc)
      else
        assert compare == Match;
        IssueSession(acc, acc.users[u.email].id, entropy, now)
  }

  /** The two agree except where bcrypt reports an error other than a mismatch
      (a stored hash that is not a bcrypt hash, for one): there LoginUser logs
      the caller in without the password having been checked. */
  lemma LoginUserAcceptsUncheckedPassword(c: Credentials, pattern: string -> bool, acc: Accounts,
                                          entropy: seq<byte>, now: int)
    requires |entropy| == 32
    requires ValidCredentials(pattern, c) && c.email in acc.users
    ensures LoginUser(Some(c), pattern, acc, CompareError, Some(entropy), now, None).reply.status == OK
    ensures LoginUserStrict(Some(c), pattern, acc, CompareError, Some(entropy), now, None).reply.status == InternalServerError
  {
  }

  lemma LoginVariantsAgreeOnVerdicts(body: Option<Credentials>, pattern: string -> bool, acc: Accounts, compare: CompareResult,
                                     entropy: Option<seq<byte>>, now: int, fault: Option<nat>)
    requires entropy.Some? ==> |entropy.value| == 32
    requires compare != CompareError
    ensures LoginUser(body, pattern, acc, compare, entropy, now, fault) == LoginUserStrict(body, pattern, acc, compare, entropy, now, fault)
  {
  }

  /** Every stored session's token has the generated shape. */
  predicate TokensWellFormed(acc: Accounts) {
    forall t :: t in acc.sessions ==> |t| == 44
  }

  /** Logins keep every stored token 44 characters long. */
  lemma LoginKeepsTokensWellFormed(body: Option<Credentials>, pattern: string -> bool, acc: Accounts, compare: CompareResult,
                                   entropy: Option<seq<byte>>, now: int, fault: Option<nat>)
    requires entropy.Some? ==> |entropy.value| == 32
    requires TokensWellFormed(acc)
    ensures TokensWellFormed(LoginUser(body, pattern, acc, compare, entropy, now, fault).accounts)
  {
    var o := LoginUser(body, pattern, acc, compare, entropy, now, fault);
    if o.reply.status == OK {
      forall t | t in o.accounts.sessions ensures |t| == 44 {
        if t != o.reply.token.value {
          assert t in acc.sessions;
        }
      }
    }
  }

  /** The empty cookie a logout leaves behind never passes the gate. */
  lemma EmptyTokenRejected(acc: Accounts, now: int)
    requires TokensWellFormed(acc)
    ensures VerifySessionToken(TokenCookie(""), acc.sessions, now) == Reject(Unauthorized, "Invalid session token")
  {
    assert "" !in acc.sessions;
  }

  /** The token a login hands out passes the gate until a day has gone by, and
      not after. */
  lemma {:induction false} LoginThenVerify(c: Credentials, pattern: string -> bool, acc: Accounts, compare: CompareResult,
                                           entropy: seq<byte>, now: int, later: int)
    requires |entropy| == 32
    requires LoginUser(Some(c), pattern, acc, compare, Some(entropy), now, None).reply.status == OK
    ensures var o := LoginUser(Some(c), pattern, acc, compare, Some(entropy), now, None);
            var gate := VerifySessionToken(TokenCookie(o.reply.token.value), o.accounts.sessions, later);
            gate == Forward <==> later <= now + SessionLifetime
  {
    var o := LoginUser(Some(c), pattern, acc, compare, Some(entropy), now, None);
    var t := o.reply.token.value;
    assert o.accounts.sessions[t] == Session(acc.users[c.email].id, now + SessionLifetime);
  }

  /** Signing up twice with one address: the second is refused with 409. */
  lemma SecondSignupConflicts(c: Credentials, pattern: string -> bool, acc: Accounts, h1: string, h2: Option<string>)
    requires 1 <= acc.nextUserId
    requires SignupUser(Some(c), pattern, acc, Some(h1), None).reply.status == Created
    ensures var once := SignupUser(Some(c), pattern, acc, Some(h1), None).accounts;
            var twice := SignupUser(Some(c), pattern, once, h2, None);
            twice.reply.status == Conflict && twice.accounts == once
  {
  }
}

=== FILE: base64.dfy ===
/** The URL-safe base64 alphabet with '=' padding (Go's base64.URLEncoding), as
    used for session tokens. */
module Base64Url {

  import opened Optional

  newtype byte = x: int | 0 <= x < 256

  /** The URL-safe alphabet: A-Z, a-z, 0-9, then '-' and '_'. */
  function Digit(i: nat): (c: char)
    requires i < 64
  {
    if i < 26 then ('A' as int + i) as char
    else if i < 52 then ('a' as int + (i - 26)) as char
    else if i < 62 then ('0' as int + (i - 52)) as char
    else if i == 62 then '-'
    else '_'
  }

  /** The inverse of Digit; None for a character outside the alphabet. */
  function DigitValue(c: char): (v: Option<nat>)
    ensures v.Some? ==> v.value < 64 && Digit(v.value) == c
  {
    if 'A' <= c <= 'Z' then Some(c as int - 'A' as int)
    else if 'a' <= c <= 'z' then Some(c as int - 'a' as int + 26)
    else if '0' <= c <= '9' then Some(c as int - '0' as int + 52)
    else if c == '-' then Some(62)
    else if c == '_' then Some(63)
    else None
  }

  lemma DigitValueOfDigit(i: nat)
    requires i < 64
    ensures DigitValue(Digit(i)) == Some(i)
  {
  }

  predicate InAlphabet(c: char) {
    DigitValue(c).Some?
  }

  /** Three bytes as four characters. */
  function Group3(x: byte, y: byte, z: byte): (g: string)
    ensures |g| == 4 && forall i :: 0 <= i < 4 ==> InAlphabet(g[i])
  {
    var a, b, c, d := x as int / 4, x as int % 4 * 16 + y as int / 16, y as int % 16 * 4 + z as int / 64, z as int % 64;
    DigitValueOfDigit(a); DigitValueOfDigit(b); DigitValueOfDigit(c); DigitValueOfDigit(d);
    [Digit(a), Digit(b), Digit(c), Digit(d)]
  }

  /** A final two bytes: three characters and one '='. */
  function Group2(x: byte, y: byte): (g: string)
    ensures |g| == 4 && g[3] == '=' && forall i :: 0 <= i < 3 ==> InAlphabet(g[i])
  {
    var a, b, c := x as int / 4, x as int % 4 * 16 + y as int / 16, y as int % 16 * 4;
    DigitValueOfDigit(a); DigitValueOfDigit(b); DigitValueOfDigit(c);
    [Digit(a), Digit(b), Digit(c), '=']
  }

  /** A final single byte: two characters and "==". */
  function Group1(x: byte): (g: string)
    ensures |g| == 4 && g[2] == '=' && g[3] == '=' && InAlphabet(g[0]) && InAlphabet(g[1])
  {
    var a, b := x as int / 4, x as int % 4 * 16;
    DigitValueOfDigit(a); DigitValueOfDigit(b);
    [Digit(a), Digit(b), '=', '=']
  }

  /** Encoding: each group of three bytes becomes four characters; a final
      group of one or two bytes is padded with '=' to four. */
  function Encode(b: seq<byte>): (s: string)
    ensures |s| == 4 * ((|b| + 2) / 3)
    ensures forall i :: 0 <= i < |s| ==> InAlphabet(s[i]) || s[i] == '='
    decreases |b|
  {
    if |b| == 0 then ""
    else if |b| == 1 then Group1(b[0])
    else if |b| == 2 then Group2(b[0], b[1])
    else
      var head := Group3(b[0], b[1], b[2]);
      var tail := Encode(b[3..]);
      assert (|b| + 2) / 3 == (|b[3..]| + 2) / 3 + 1;
      assert forall i :: 4 <= i < |head + tail| ==> (head + tail)[i] == tail[i - 4];
      head + tail
  }

  lemma LastTwoOfConcat(head: string, tail: string)
    requires |tail| >= 2
    ensures var s := head + tail; s[|s| - 1] == tail[|tail| - 1] && s[|s| - 2] == tail[|tail| - 2]
  {
  }

  /** A byte string two longer than a multiple of three ends in exactly one
      '=' of padding. */
  lemma {:induction false} EncodeSinglePad(b: seq<byte>)
    requires |b| % 3 == 2
    ensures var s := Encode(b); s[|s| - 1] == '=' && InAlphabet(s[|s| - 2])
    decreases |b|
  {
    if |b| > 2 {
      var head := Group3(b[0], b[1], b[2]);
      var tail := Encode(b[3..]);
      assert |b[3..]| == |b| - 3 && (|b| - 3) % 3 == 2;
      EncodeSinglePad(b[3..]);
      assert |tail| >= 2;
      var s := Encode(b);
      assert s == head + tail;
      LastTwoOfConcat(head, tail);
    }
  }

  /** Reads one four-character group back into the bytes it encodes. */
  function DecodeGroup(g: string): (r: Option<seq<byte>>)
    requires |g| == 4
  {
    var a, b := DigitValue(g[0]), DigitValue(g[1]);
    if a.None? || b.None? then None
    else if g[2] == '=' && g[3] == '=' then
      if b.value % 16 != 0 then None else Some([(a.value * 4 + b.value / 16) as byte])
    else
      var c := DigitValue(g[2]);
      if c.None? then None
      else if g[3] == '=' then
        if c.value % 4 != 0 then None
        else Some([(a.value * 4 + b.value / 16) as byte, (b.value % 16 * 16 + c.value / 4) as byte])
      else
        var d := DigitValue(g[3]);
        if d.None? then None
        else Some([(a.value * 4 + b.value / 16) as byte, (b.value % 16 * 16 + c.value / 4) as byte,
                   (c.value % 4 * 64 + d.value) as byte])
  }

  /** Strict decoding: whole groups, padding only in the last one. */
  function Decode(s: string): (r: Option<seq<byte>>)
    decreases |s|
  {
    if |s| == 0 then Some([])
    else if |s| < 4 then None
    else
      var g := DecodeGroup(s[..4]);
      if g.None? then None
      else if |g.value| < 3 then (if |s| == 4 then g else None)
      else
        var rest := Decode(s[4..]);
        if rest.None? then None else Some(g.value + rest.value)
  }

  /** The bit arithmetic of a whole group: the four 6-bit digits of three
      bytes put the bytes back together. */
  lemma Regroup3(x: int, y: int, z: int)
    requires 0 <= x < 256 && 0 <= y < 256 && 0 <= z < 256
    ensures var b, c := x % 4 * 16 + y / 16, y % 16 * 4 + z / 64;
      && x / 4 * 4 + b / 16 == x
      && b % 16 * 16 + c / 4 == y
      && c % 4 * 64 + z % 64 == z
  {
    var b, c := x % 4 * 16 + y / 16, y % 16 * 4 + z / 64;
    assert b / 16 == x % 4 && b % 16 == y / 16;
    assert c / 4 == y % 16 && c % 4 == z / 64;
  }

  lemma Group3Decodes(x: byte, y: byte, z: byte)
    ensures DecodeGroup(Group3(x, y, z)) == Some([x, y, z])
  {
    var a, b, c, d := x as int / 4, x as int % 4 * 16 + y as int / 16, y as int % 16 * 4 + z as int / 64, z as int % 64;
    DigitValueOfDigit(a); DigitValueOfDigit(b); DigitValueOfDigit(c); DigitValueOfDigit(d);
    Regroup3(x as int, y as int, z as int);
    var g := Group3(x, y, z);
    assert g == [Digit(a), Digit(b), Digit(c), Digit(d)];
  }

  lemma Group2Decodes(x: byte, y: byte)
    ensures DecodeGroup(Group2(x, y)) == Some([x, y])
  {
    var a, b, c := x as int / 4, x as int % 4 * 16 + y as int / 16, y as int % 16 * 4;
    DigitValueOfDigit(a); DigitValueOfDigit(b); DigitValueOfDigit(c);
    assert b / 16 == x as int % 4 && b % 16 == y as int / 16;
    assert c / 4 == y as int % 16 && c % 4 == 0;
    assert a * 4 + b / 16 == x as int;
    assert b % 16 * 16 + c / 4 == y as int;
  }

  lemma Group1Decodes(x: byte)
    ensures DecodeGroup(Group1(x)) == Some([x])
  {
    var a, b := x as int / 4, x as int % 4 * 16;
    DigitValueOfDigit(a); DigitValueOfDigit(b);
    assert b / 16 == x as int % 4 && b % 16 == 0;
    assert a * 4 + b / 16 == x as int;
  }

  lemma DecodeLastGroup(g: string, v: seq<byte>)
    requires |g| == 4 && DecodeGroup(g) == Some(v) && |v| < 3
    ensures Decode(g) == Some(v)
  {
    assert g[..4] == g;
  }

  lemma DecodeFullGroup(g: string, v: seq<byte>, rest: string, w: seq<byte>)
    requires |g| == 4 && DecodeGroup(g) == Some(v) && |v| == 3
    requires Decode(rest) == Some(w)
    ensures Decode(g + rest) == Some(v + w)
  {
    assert (g + rest)[..4] == g;
    assert (g + rest)[4..] == rest;
  }

  /** A final group of one or two bytes decodes back. */
  lemma DecodeEncodeShort(b: seq<byte>)
    requires 1 <= |b| <= 2
    ensures Decode(Encode(b)) == Some(b)
  {
    if |b| == 1 {
      assert Encode(b) == Group1(b[0]);
      Group1Decodes(b[0]);
      assert [b[0]] == b;
      DecodeLastGroup(Group1(b[0]), b);
    } else {
      assert Encode(b) == Group2(b[0], b[1]);
      Group2Decodes(b[0], b[1]);
      assert [b[0], b[1]] == b;
      DecodeLastGroup(Group2(b[0], b[1]), b);
    }
  }

  /** Decoding what was encoded gives back the bytes. */
  lemma {:induction false} DecodeEncode(b: seq<byte>)
    ensures Decode(Encode(b)) == Some(b)
    decreases |b|
  {
    if 1 <= |b| <= 2 {
      DecodeEncodeShort(b);
    } else if |b| >= 3 {
      var head := Group3(b[0], b[1], b[2]);
      var tail := Encode(b[3..]);
      EncodeStep(b);
      Group3Decodes(b[0], b[1], b[2]);
      DecodeEncode(b[3..]);
      DecodeFullGroup(head, [b[0], b[1], b[2]], tail, b[3..]);
      SplitFirstThree(b);
    }
  }

  lemma EncodeStep(b: seq<byte>)
    requires |b| >= 3
    ensures Encode(b) == Group3(b[0], b[1], b[2]) + Encode(b[3..])
  {
  }

  lemma SplitFirstThree(b: seq<byte>)
    requires |b| >= 3
    ensures b == [b[0], b[1], b[2]] + b[3..]
  {
  }

  /** Different byte strings never encode to the same text. */
  lemma EncodeInjective(a: seq<byte>, b: seq<byte>)
    requires Encode(a) == Encode(b)
    ensures a == b
  {
    DecodeEncode(a);
    DecodeEncode(b);
  }
}

=== FILE: borrowing.dfy ===
/** Borrowing and returning a book (POST /book/borrow, POST /book/return), in the
    three versions of the API. */
module Borrowing {

  import opened Optional
  import opened Http
  import opened Library

  /** The decoded JSON body {"subscriber_id": .., "book_id": ..}; a body that does
      not decode is None. Absent fields decode as 0. */
  datatype LoanRequest = LoanRequest(subscriberId: int, bookId: int)

  /** Only the current API refuses a request whose ids are zero (absent). */
  predicate MissingIds(variant: Variant, req: LoanRequest) {
    variant == Current && (req.subscriberId == 0 || req.bookId == 0)
  }

  /** The store after a borrow went through: one new open row, the book flagged. */
  function Lent(s: Store, req: LoanRequest, now: int): Store
    requires req.bookId in s.books
  {
    s.(borrows := s.borrows + [BorrowRecord(req.subscriberId, req.bookId, now, None)],
       books := s.books[req.bookId := s.books[req.bookId].(isBorrowed := true)])
  }

  /** The success body of BorrowBook: JSON in the current API, plain text in
      the two older ones. */
  function BorrowedBody(variant: Variant): ApiBody {
    if variant == Current then JsonMessage("Book borrowed successfully") else Message("Book borrowed successfully")
  }

  /** The body of a database error in BorrowBook: the current API puts
      "Database error: " before the driver's text, the older ones send it bare. */
  function BorrowDbError(variant: Variant): ApiBody {
    if variant == Current then PrefixedDbError("Database error: ") else DbError
  }

  /** BorrowBook. The SQL statements, in order: 0 reads the book's flag, 1 inserts
      the borrow row, 2 sets the flag. */
  function BorrowBook(variant: Variant, verb: Method, body: Option<LoanRequest>, s: Store, now: int, fault: Fault): (r: Outcome)
    ensures r.status in {Created, BadRequest, MethodNotAllowed, Conflict, InternalServerError}
    ensures verb != Post ==> r.status == MethodNotAllowed
    ensures verb == Post && body.Some? && MissingIds(variant, body.value) ==> r.status == BadRequest
    ensures r.status == Conflict <==>
      && verb == Post && body.Some? && !MissingIds(variant, body.value) && !FailsAt(fault, 0)
      && body.value.bookId in s.books && s.books[body.value.bookId].isBorrowed
    ensures r.status == Created <==>
      && verb == Post && body.Some? && !MissingIds(variant, body.value)
      && fault !in {Some(0), Some(1), Some(2)}
      && body.value.bookId in s.books && !s.books[body.value.bookId].isBorrowed
    // A refused or failed request leaves the database alone, except when the
    // final UPDATE fails after the borrow row was written.
    ensures r.status != Created && !FailsAt(fault, 2) ==> r.store == s
    ensures r.status == Created ==>
      && OnlyBooksAndLogDiffer(s, r.store)
      && r.store.borrows == s.borrows + [BorrowRecord(body.value.subscriberId, body.value.bookId, now, None)]
      && r.store.books.Keys == s.books.Keys
      && r.store.books[body.value.bookId] == s.books[body.value.bookId].(isBorrowed := true)
      && (forall id :: id in s.books && id != body.value.bookId ==> r.store.books[id] == s.books[id])
    ensures && verb == Post && body.Some? && !MissingIds(variant, body.value) && FailsAt(fault, 2)
            && body.value.bookId in s.books && !s.books[body.value.bookId].isBorrowed ==>
      && r.status == InternalServerError
      && r.store == s.(borrows := s.borrows + [BorrowRecord(body.value.subscriberId, body.value.bookId, now, None)])
  {
    if verb != Post then Outcome(MethodNotAllowed, Message("Method not allowed"), s)
    else if body.None? then Outcome(BadRequest, Message("Invalid request body"), s)
    else
      var req := body.value;
      var dbError := BorrowDbError(variant);
      if MissingIds(variant, req) then Outcome(BadRequest, Message("Missing required fields"), s)
      // SELECT is_borrowed: a book that does not exist is sql.ErrNoRows, an error like any other.
      else if FailsAt(fault, 0) || req.bookId !in s.books then Outcome(InternalServerError, dbError, s)
      else if s.books[req.bookId].isBorrowed then Outcome(Conflict, Message("Book is already borrowed"), s)
      else if FailsAt(fault, 1) then Outcome(InternalServerError, dbError, s)
      else
        var logged := s.(borrows := s.borrows + [BorrowRecord(req.subscriberId, req.bookId, now, None)]);
        if FailsAt(fault, 2) then Outcome(InternalServerError, dbError, logged)
        else Outcome(Created, BorrowedBody(variant), Lent(s, req, now))
  }

  /** ReturnBorrowedBook, the same in api/main.go and api/server_API.go. The SQL
      statements, in order: 0 reads the book only if it is flagged borrowed, 1
      stamps the return date on the matching borrow rows, 2 clears the flag. */
  function ReturnBorrowedBook(verb: Method, body: Option<LoanRequest>, s: Store, now: int, fault: Fault): (r: Outcome)
    ensures r.status in {OK, BadRequest, NotFound, MethodNotAllowed, InternalServerError}
    ensures verb != Post ==> r.status == MethodNotAllowed
    ensures r.status == NotFound <==>
      && verb == Post && body.Some?
      && (FailsAt(fault, 0) || body.value.bookId !in s.books || !s.books[body.value.bookId].isBorrowed)
    ensures r.status == OK <==>
      && verb == Post && body.Some? && fault !in {Some(0), Some(1), Some(2)}
      && body.value.bookId in s.books && s.books[body.value.bookId].isBorrowed
    ensures r.status != OK && !FailsAt(fault, 2) ==> r.store == s
    // Whoever is named as the subscriber, a successful return clears the flag;
    // only that subscriber's rows for the book get a return date.
    ensures r.status == OK ==>
      && OnlyBooksAndLogDiffer(s, r.store)
      && r.store.borrows == MarkReturned(s.borrows, body.value.subscriberId, body.value.bookId, now)
      && r.store.books.Keys == s.books.Keys
      && r.store.books[body.value.bookId] == s.books[body.value.bookId].(isBorrowed := false)
      && (forall id :: id in s.books && id != body.value.bookId ==> r.store.books[id] == s.books[id])
    ensures && verb == Post && body.Some? && FailsAt(fault, 2)
            && body.value.bookId in s.books && s.books[body.value.bookId].isBorrowed ==>
      && r.status == InternalServerError
      && r.store == s.(borrows := MarkReturned(s.borrows, body.value.subscriberId, body.value.bookId, now))
  {
    if verb != Post then Outcome(MethodNotAllowed, Message("Method not allowed"), s)
    else if body.None? then Outcome(BadRequest, Message("Invalid request body"), s)
    else
      var req := body.value;
      // Any error of the guarded SELECT, not only "no rows", is answered 404.
      if FailsAt(fault, 0) || req.bookId !in s.books || !s.books[req.bookId].isBorrowed then
        Outcome(NotFound, Message("Book is not borrowed"), s)
      else if FailsAt(fault, 1) then Outcome(InternalServerError, DbError, s)
      else
        var stamped := s.(borrows := MarkReturned(s.borrows, req.subscriberId, req.bookId, now));
        if FailsAt(fault, 2) then Outcome(InternalServerError, DbError, stamped)
        else
          Outcome(OK, Message("Book returned successfully"),
                  stamped.(books := s.books[req.bookId := s.books[req.bookId].(isBorrowed := false)]))
  }

  /** Once lent, a book cannot be lent again, to anyone, until it is returned:
      the second request is refused with 409 and changes nothing. */
  lemma SecondBorrowConflicts(variant: Variant, first: LoanRequest, second: LoanRequest, s: Store, t1: int, t2: int, fault: Fault)
    requires BorrowBook(variant, Post, Some(first), s, t1, None).status == Created
    requires second.bookId == first.bookId && !MissingIds(variant, second) && !FailsAt(fault, 0)
    ensures var lent := BorrowBook(variant, Post, Some(first), s, t1, None).store;
            var again := BorrowBook(variant, Post, Some(second), lent, t2, fault);
            again.status == Conflict && again.store == lent
  {
  }

  /** Borrowing and then returning by the same subscriber puts the flag back and
      leaves that subscriber no open loan of the book. */
  lemma {:induction false} BorrowThenReturn(variant: Variant, req: LoanRequest, s: Store, t1: int, t2: int)
    requires BorrowBook(variant, Post, Some(req), s, t1, None).status == Created
    ensures var lent := BorrowBook(variant, Post, Some(req), s, t1, None).store;
            var back := ReturnBorrowedBook(Post, Some(req), lent, t2, None);
            && back.status == OK
            && back.store.books == s.books[req.bookId := s.books[req.bookId].(isBorrowed := false)]
            && !OpenBorrow(back.store.borrows, req.subscriberId, req.bookId)
  {
    var lent := BorrowBook(variant, Post, Some(req), s, t1, None).store;
    var back := ReturnBorrowedBook(Post, Some(req), lent, t2, None);
    var log := back.store.borrows;
    assert log == MarkReturned(lent.borrows, req.subscriberId, req.bookId, t2);
    forall i | 0 <= i < |log| && log[i].subscriberId == req.subscriberId && log[i].bookId == req.bookId
      ensures log[i].returnedAt == Some(t2)
    {
    }
  }

  /** A return naming a subscriber who never borrowed the book is still accepted:
      the flag is cleared while the real borrower's loan stays open. */
  lemma {:induction false} ReturnByStrangerClearsFlag(variant: Variant, req: LoanRequest, stranger: int, s: Store, t1: int, t2: int)
    requires BorrowBook(variant, Post, Some(req), s, t1, None).status == Created
    requires stranger != req.subscriberId
    ensures var lent := BorrowBook(variant, Post, Some(req), s, t1, None).store;
            var back := ReturnBorrowedBook(Post, Some(LoanRequest(stranger, req.bookId)), lent, t2, None);
            && back.status == OK
            && !back.store.books[req.bookId].isBorrowed
            && OpenBorrow(back.store.borrows, req.subscriberId, req.bookId)
  {
    var lent := BorrowBook(variant, Post, Some(req), s, t1, None).store;
    var back := ReturnBorrowedBook(Post, Some(LoanRequest(stranger, req.bookId)), lent, t2, None);
    var k := |s.borrows|;
    assert lent.borrows[k] == BorrowRecord(req.subscriberId, req.bookId, t1, None);
    assert back.store.borrows[k] == lent.borrows[k];
  }

  /** The two older versions agree on every request. The current one agrees
      with them on status and store whenever its zero-id check does not fire;
      its bodies differ only where it answers 201, in JSON, and 500, with the
      "Database error: " prefix. */
  lemma BorrowVariantsAgree(verb: Method, body: Option<LoanRequest>, s: Store, now: int, fault: Fault)
    ensures BorrowBook(Earlier, verb, body, s, now, fault) == BorrowBook(Prototype, verb, body, s, now, fault)
    ensures body.Some? ==> !MissingIds(Current, body.value) ==>
      var c := BorrowBook(Current, verb, body, s, now, fault);
      var e := BorrowBook(Earlier, verb, body, s, now, fault);
      && c.status == e.status && c.store == e.store
      && (c.status !in {Created, InternalServerError} ==> c.body == e.body)
      && (c.status == Created ==>
            c.body == JsonMessage("Book borrowed successfully") && e.body == Message("Book borrowed successfully"))
      && (c.status == InternalServerError ==> c.body == PrefixedDbError("Database error: ") && e.body == DbError)
  {
  }

  /** A partial write: when setting the flag fails, the request is answered 500
      yet the borrow row stays behind, open, while the book still reads as free. */
  lemma FailedFlagLeavesOrphanLoan(variant: Variant, req: LoanRequest, s: Store, now: int)
    requires !MissingIds(variant, req) && req.bookId in s.books && !s.books[req.bookId].isBorrowed
    ensures var r := BorrowBook(variant, Post, Some(req), s, now, Some(2));
            && r.status == InternalServerError
            && !r.store.books[req.bookId].isBorrowed
            && OpenBorrow(r.store.borrows, req.subscriberId, req.bookId)
  {
    var r := BorrowBook(variant, Post, Some(req), s, now, Some(2));
    assert r.store.borrows[|s.borrows|].returnedAt == None;
  }
}

=== FILE: catalog.dfy ===
/** Creating, updating and deleting authors, books and subscribers: the
    AddAuthor/AddBook/AddSubscriber, Update* and Delete* handlers. Each takes the
    request (method, the `{id}` path segment, the decoded JSON body or None when
    it does not decode), the store and the statement that fails, if any. */
module Catalog {

  import opened Optional
  import opened Http
  import opened Decimal
  import opened Library

  predicate AuthorComplete(a: Author) {
    a.firstname != "" && a.lastname != ""
  }

  predicate BookComplete(b: Book) {
    b.title != "" && b.authorId != 0
  }

  predicate SubscriberComplete(sub: Subscriber) {
    sub.firstname != "" && sub.lastname != "" && sub.email != ""
  }

  /** AddAuthor (POST /authors/new). The current API stores an empty photo and
      answers 201; the earlier one stores the client's photo and answers 200. The
      prototype has no such handler. */
  function AddAuthor(variant: Variant, verb: Method, body: Option<Author>, s: Store, fault: Fault): (r: Outcome)
    requires variant != Prototype
    ensures !r.body.BookFound?
    ensures verb != Post ==> r.status == MethodNotAllowed
    ensures verb == Post && body.Some? && !AuthorComplete(body.value) ==> r.status == BadRequest
    ensures r.status == InternalServerError <==> verb == Post && body.Some? && AuthorComplete(body.value) && FailsAt(fault, 0)
    ensures r.status in {Created, OK} <==> verb == Post && body.Some? && AuthorComplete(body.value) && !FailsAt(fault, 0)
    ensures r.status == Created <==> r.status in {Created, OK} && variant == Current
    ensures r.status !in {Created, OK} ==> r.store == s
    ensures r.status in {Created, OK} ==>
      && r.body == NewId(s.nextAuthorId)
      && r.store.authors == s.authors[s.nextAuthorId :=
           if variant == Current then body.value.(photo := "") else body.value]
      && r.store.nextAuthorId == s.nextAuthorId + 1
      && r.store.books == s.books && r.store.subscribers == s.subscribers && r.store.borrows == s.borrows
      && r.store.nextBookId == s.nextBookId && r.store.nextSubscriberId == s.nextSubscriberId
  {
    if verb != Post then Outcome(MethodNotAllowed, Message("Only POST method is supported"), s)
    else if body.None? then Outcome(BadRequest, Message("Invalid JSON data"), s)
    else if !AuthorComplete(body.value) then Outcome(BadRequest, Message("Firstname and Lastname are required fields"), s)
    else if FailsAt(fault, 0) then Outcome(InternalServerError, DbError, s)
    else
      var id := s.nextAuthorId;
      var stored := if variant == Current then body.value.(photo := "") else body.value;
      Outcome(if variant == Current then Created else OK, NewId(id),
              s.(authors := s.authors[id := stored], nextAuthorId := id + 1))
  }

  /** AddBook (POST /books/new). The current API stores an empty photo and the
      client's is_borrowed flag and answers 201; the earlier one stores the
      client's photo and answers 200, and since its INSERT has no is_borrowed
      column the flag takes the column default, false. Whether the author exists
      is not checked. */
  function AddBook(variant: Variant, verb: Method, body: Option<Book>, s: Store, fault: Fault): (r: Outcome)
    requires variant != Prototype
    ensures !r.body.BookFound?
    ensures verb != Post ==> r.status == MethodNotAllowed
    ensures verb == Post && body.Some? && !BookComplete(body.value) ==> r.status == BadRequest
    ensures r.status == InternalServerError <==> verb == Post && body.Some? && BookComplete(body.value) && FailsAt(fault, 0)
    ensures r.status in {Created, OK} <==> verb == Post && body.Some? && BookComplete(body.value) && !FailsAt(fault, 0)
    ensures r.status == Created <==> r.status in {Created, OK} && variant == Current
    ensures r.status !in {Created, OK} ==> r.store == s
    ensures r.status in {Created, OK} ==>
      && r.body == NewId(s.nextBookId)
      && r.store.books == s.books[s.nextBookId := (
           if variant == Current then body.value.(photo := "") else body.value.(isBorrowed := false))]
      && r.store.nextBookId == s.nextBookId + 1
      && r.store.authors == s.authors && r.store.subscribers == s.subscribers && r.store.borrows == s.borrows
      && r.store.nextAuthorId == s.nextAuthorId && r.store.nextSubscriberId == s.nextSubscriberId
  {
    if verb != Post then Outcome(MethodNotAllowed, Message("Only POST method is supported"), s)
    else if body.None? then Outcome(BadRequest, Message("Invalid JSON data"), s)
    else if !BookComplete(body.value) then Outcome(BadRequest, Message("Title and AuthorID are required fields"), s)
    else if FailsAt(fault, 0) then Outcome(InternalServerError, DbError, s)
    else
      var id := s.nextBookId;
      var stored := if variant == Current then body.value.(photo := "") else body.value.(isBorrowed := false);
      Outcome(if variant == Current then Created else OK, NewId(id),
              s.(books := s.books[id := stored], nextBookId := id + 1))
  }

  /** AddSubscriber (POST /subscribers/new), which answers 200 with the new id. */
  function AddSubscriber(verb: Method, body: Option<Subscriber>, s: Store, fault: Fault): (r: Outcome)
    ensures !r.body.BookFound?
    ensures verb != Post ==> r.status == MethodNotAllowed
    ensures verb == Post && body.Some? && !SubscriberComplete(body.value) ==> r.status == BadRequest
    ensures r.status == OK <==> verb == Post && body.Some? && SubscriberComplete(body.value) && !FailsAt(fault, 0)
    ensures r.status != OK ==> r.store == s
    ensures r.status == OK ==>
      && r.body == NewId(s.nextSubscriberId)
      && r.store == s.(subscribers := s.subscribers[s.nextSubscriberId := body.value],
                       nextSubscriberId := s.nextSubscriberId + 1)
  {
    if verb != Post then Outcome(MethodNotAllowed, Message("Only POST method is supported"), s)
    else if body.None? then Outcome(BadRequest, Message("Invalid JSON data"), s)
    else if !SubscriberComplete(body.value) then
      Outcome(BadRequest, Message("Firstname, Lastname, and Email are required fields"), s)
    else if FailsAt(fault, 0) then Outcome(InternalServerError, DbError, s)
    else
      var id := s.nextSubscriberId;
      Outcome(OK, NewId(id), s.(subscribers := s.subscribers[id := body.value], nextSubscriberId := id + 1))
  }

  /** The shared front part of the update handlers: PUT or POST only, then a
      numeric id. Some(status) when the request stops here. */
  function UpdateGate(verb: Method, idText: string): (stop: Option<int>)
    ensures stop.None? <==> (verb == Put || verb == Post) && ParseInt(idText).Some?
    ensures stop.Some? ==> stop.value == (if verb == Put || verb == Post then BadRequest else MethodNotAllowed)
  {
    if verb != Put && verb != Post then Some(MethodNotAllowed)
    else if ParseInt(idText).None? then Some(BadRequest)
    else None
  }

  /** UpdateAuthor (PUT or POST /authors/{id}): overwrites names and photo. The
      driver reports changed rows, so an id that is absent and an update that
      changes nothing are both answered 404. */
  function UpdateAuthor(verb: Method, idText: string, body: Option<Author>, s: Store, fault: Fault): (r: Outcome)
    ensures r.status in {OK, BadRequest, NotFound, MethodNotAllowed, InternalServerError}
    ensures verb != Put && verb != Post ==> r.status == MethodNotAllowed
    ensures (verb == Put || verb == Post) && ParseInt(idText).None? ==> r.status == BadRequest
    ensures r.status == OK <==>
      && (verb == Put || verb == Post) && ParseInt(idText).Some? && body.Some? && AuthorComplete(body.value)
      && !FailsAt(fault, 0) && ParseInt(idText).value in s.authors
      && s.authors[ParseInt(idText).value] != body.value
    ensures r.status == NotFound ==> UpdateGate(verb, idText).None? && r.store == s
    ensures r.status != OK ==> r.store == s
    ensures r.status == OK ==> r.store == s.(authors := s.authors[ParseInt(idText).value := body.value])
  {
    var stop := UpdateGate(verb, idText);
    if stop.Some? then Outcome(stop.value, Message("Invalid request"), s)
    else if body.None? then Outcome(BadRequest, Message("Invalid JSON data"), s)
    else if !AuthorComplete(body.value) then Outcome(BadRequest, Message("Firstname and Lastname are required fields"), s)
    else if FailsAt(fault, 0) then Outcome(InternalServerError, DbError, s)
    else
      var id := ParseInt(idText).value;
      if id !in s.authors || s.authors[id] == body.value then Outcome(NotFound, Message("Author not found"), s)
      else Outcome(OK, Message("Author updated successfully"), s.(authors := s.authors[id := body.value]))
  }

  /** UpdateBook (PUT or POST /books/{id}): overwrites every column, the
      borrowed flag included, with the same changed-rows rule. */
  function UpdateBook(verb: Method, idText: string, body: Option<Book>, s: Store, fault: Fault): (r: Outcome)
    ensures r.status in {OK, BadRequest, NotFound, MethodNotAllowed, InternalServerError}
    ensures verb != Put && verb != Post ==> r.status == MethodNotAllowed
    ensures (verb == Put || verb == Post) && ParseInt(idText).None? ==> r.status == BadRequest
    ensures r.status == OK <==>
      && (verb == Put || verb == Post) && ParseInt(idText).Some? && body.Some? && BookComplete(body.value)
      && !FailsAt(fault, 0) && ParseInt(idText).value in s.books
      && s.books[ParseInt(idText).value] != body.value
    ensures r.status == NotFound ==> UpdateGate(verb, idText).None? && r.store == s
    ensures r.status != OK ==> r.store == s
    ensures r.status == OK ==> r.store == s.(books := s.books[ParseInt(idText).value := body.value])
  {
    var stop := UpdateGate(verb, idText);
    if stop.Some? then Outcome(stop.value, Message("Invalid request"), s)
    else if body.None? then Outcome(BadRequest, Message("Invalid JSON data"), s)
    else if !BookComplete(body.value) then Outcome(BadRequest, Message("Title and AuthorID are required fields"), s)
    else if FailsAt(fault, 0) then Outcome(InternalServerError, DbError, s)
    else
      var id := ParseInt(idText).value;
      if id !in s.books || s.books[id] == body.value then Outcome(NotFound, Message("Book not found"), s)
      else Outcome(OK, Message("Book updated successfully"), s.(books := s.books[id := body.value]))
  }

  /** UpdateSubscriber (PUT or POST /subscribers/{id}). */
  function UpdateSubscriber(verb: Method, idText: string, body: Option<Subscriber>, s: Store, fault: Fault): (r: Outcome)
    ensures r.status in {OK, BadRequest, NotFound, MethodNotAllowed, InternalServerError}
    ensures verb != Put && verb != Post ==> r.status == MethodNotAllowed
    ensures (verb == Put || verb == Post) && ParseInt(idText).None? ==> r.status == BadRequest
    ensures r.status == OK <==>
      && (verb == Put || verb == Post) && ParseInt(idText).Some? && body.Some? && SubscriberComplete(body.value)
      && !FailsAt(fault, 0) && ParseInt(idText).value in s.subscribers
      && s.subscribers[ParseInt(idText).value] != body.value
    ensures r.status == NotFound ==> UpdateGate(verb, idText).None? && r.store == s
    ensures r.status != OK ==> r.store == s
    ensures r.status == OK ==> r.store == s.(subscribers := s.subscribers[ParseInt(idText).value := body.value])
  {
    var stop := UpdateGate(verb, idText);
    if stop.Some? then Outcome(stop.value, Message("Invalid request"), s)
    else if body.None? then Outcome(BadRequest, Message("Invalid JSON data"), s)
    else if !SubscriberComplete(body.value) then
      Outcome(BadRequest, Message("Firstname, Lastname, and Email are required fields"), s)
    else if FailsAt(fault, 0) then Outcome(InternalServerError, DbError, s)
    else
      var id := ParseInt(idText).value;
      if id !in s.subscribers || s.subscribers[id] == body.value then Outcome(NotFound, Message("Subscriber not found"), s)
      else Outcome(OK, Message("Subscriber updated successfully"), s.(subscribers := s.subscribers[id := body.value]))
  }

  /** The shared front part of the delete handlers: DELETE only, then a numeric id. */
  function DeleteGate(verb: Method, idText: string): (stop: Option<int>)
    ensures stop.None? <==> verb == Delete && ParseInt(idText).Some?
    ensures stop.Some? ==> stop.value == (if verb == Delete then BadRequest else MethodNotAllowed)
  {
    if verb != Delete then Some(MethodNotAllowed)
    else if ParseInt(idText).None? then Some(BadRequest)
    else None
  }

  /** DeleteAuthor (DELETE /authors/{id}). Statements: 0 counts the author's
      books, 1 deletes the author. An author with books is refused with 400. */
  function DeleteAuthor(verb: Method, idText: string, s: Store, fault: Fault): (r: Outcome)
    ensures r.status in {OK, BadRequest, NotFound, MethodNotAllowed, InternalServerError}
    ensures verb != Delete ==> r.status == MethodNotAllowed
    ensures r.status == BadRequest <==>
      verb == Delete && (ParseInt(idText).None? || (!FailsAt(fault, 0) && BooksOf(s, ParseInt(idText).value, None) != {}))
    ensures r.status == NotFound <==>
      && verb == Delete && ParseInt(idText).Some? && fault !in {Some(0), Some(1)}
      && BooksOf(s, ParseInt(idText).value, None) == {} && ParseInt(idText).value !in s.authors
    ensures r.status == OK <==>
      && verb == Delete && ParseInt(idText).Some? && fault !in {Some(0), Some(1)}
      && BooksOf(s, ParseInt(idText).value, None) == {} && ParseInt(idText).value in s.authors
    ensures r.status != OK ==> r.store == s
    ensures r.status == OK ==>
      r.store == s.(authors := s.authors - {ParseInt(idText).value})
  {
    var stop := DeleteGate(verb, idText);
    if stop.Some? then Outcome(stop.value, Message("Invalid request"), s)
    else
      var id := ParseInt(idText).value;
      if FailsAt(fault, 0) then Outcome(InternalServerError, DbError, s)
      else if BooksOf(s, id, None) != {} then Outcome(BadRequest, Message("Author has associated books, delete books first"), s)
      else if FailsAt(fault, 1) then Outcome(InternalServerError, DbError, s)
      else if id !in s.authors then Outcome(NotFound, Message("Author not found"), s)
      else Outcome(OK, Message("Author deleted successfully"), s.(authors := s.authors - {id}))
  }

  /** DeleteBook (DELETE /books/{id}). Statements: 0 reads the book's author (a
      missing book is sql.ErrNoRows, answered 500), 1 counts the author's other
      books, 2 deletes the book, 3 deletes the author when it has no other book.
      Statement 3 failing leaves the book deleted and the author in place. */
  function DeleteBook(verb: Method, idText: string, s: Store, fault: Fault): (r: Outcome)
    ensures r.status in {OK, BadRequest, MethodNotAllowed, InternalServerError}
    ensures verb != Delete ==> r.status == MethodNotAllowed
    ensures verb == Delete && ParseInt(idText).None? ==> r.status == BadRequest
    ensures r.status == OK <==>
      && verb == Delete && ParseInt(idText).Some? && ParseInt(idText).value in s.books
      && fault !in {Some(0), Some(1), Some(2)}
      && (FailsAt(fault, 3) ==> BooksOf(s, s.books[ParseInt(idText).value].authorId, Some(ParseInt(idText).value)) != {})
    ensures r.status != OK && !FailsAt(fault, 3) ==> r.store == s
    ensures r.status == OK ==>
      var id := ParseInt(idText).value;
      var author := s.books[id].authorId;
      && r.store.books == s.books - {id}
      && r.store.authors == (if BooksOf(s, author, Some(id)) == {} then s.authors - {author} else s.authors)
      && r.store.subscribers == s.subscribers && r.store.borrows == s.borrows
      && r.store.nextAuthorId == s.nextAuthorId && r.store.nextBookId == s.nextBookId
      && r.store.nextSubscriberId == s.nextSubscriberId
  {
    var stop := DeleteGate(verb, idText);
    if stop.Some? then Outcome(stop.value, Message("Invalid request"), s)
    else
      var id := ParseInt(idText).value;
      if FailsAt(fault, 0) || id !in s.books then Outcome(InternalServerError, DbError, s)
      else
        var author := s.books[id].authorId;
        if FailsAt(fault, 1) || FailsAt(fault, 2) then Outcome(InternalServerError, DbError, s)
        else
          // The book exists, so the DELETE removes one row and the 404 branch is not taken.
          var removed := s.(books := s.books - {id});
          if BooksOf(s, author, Some(id)) != {} then Outcome(OK, Message("Book deleted successfully"), removed)
          else if FailsAt(fault, 3) then Outcome(InternalServerError, DbError, removed)
          else Outcome(OK, Message("Book deleted successfully"), removed.(authors := s.authors - {author}))
  }

  /** DeleteSubscriber (DELETE /subscribers/{id}). The borrow log is left alone. */
  function DeleteSubscriber(verb: Method, idText: string, s: Store, fault: Fault): (r: Outcome)
    ensures r.status in {OK, BadRequest, NotFound, MethodNotAllowed, InternalServerError}
    ensures verb != Delete ==> r.status == MethodNotAllowed
    ensures r.status == NotFound <==>
      verb == Delete && ParseInt(idText).Some? && !FailsAt(fault, 0) && ParseInt(idText).value !in s.subscribers
    ensures r.status == OK <==>
      verb == Delete && ParseInt(idText).Some? && !FailsAt(fault, 0) && ParseInt(idText).value in s.subscribers
    ensures r.status != OK ==> r.store == s
    ensures r.status == OK ==>
      r.store == s.(subscribers := s.subscribers - {ParseInt(idText).value})
  {
    var stop := DeleteGate(verb, idText);
    if stop.Some? then Outcome(stop.value, Message("Invalid request"), s)
    else
      var id := ParseInt(idText).value;
      if FailsAt(fault, 0) then Outcome(InternalServerError, DbError, s)
      else if id !in s.subscribers then Outcome(NotFound, Message("Subscriber not found"), s)
      else Outcome(OK, Message("Subscriber deleted successfully"), s.(subscribers := s.subscribers - {id}))
  }
}

=== FILE: decimal.dfy ===
/** Decimal text for integers, as Go's strconv.Itoa / strconv.Atoi (on a 64-bit
    platform) and Python's str(int) produce and read it. */
module Decimal {

  import opened Optional

  const Int64Min: int := -0x8000_0000_0000_0000
  const Int64Max: int := 0x7FFF_FFFF_FFFF_FFFF

  predicate IsDigit(c: char) {
    '0' <= c <= '9'
  }

  predicate AllDigits(s: string) {
    forall i :: 0 <= i < |s| ==> IsDigit(s[i])
  }

  function DigitChar(d: nat): (c: char)
    requires d < 10
    ensures IsDigit(c) && c as int - '0' as int == d
  {
    ('0' as int + d) as char
  }

  /** The value of a string of decimal digits, most significant first. */
  function DigitsValue(s: string): nat
    requires AllDigits(s)
  {
    if |s| == 0 then 0
    else DigitsValue(s[..|s| - 1]) * 10 + (s[|s| - 1] as int - '0' as int)
  }

  /** Canonical decimal digits of a natural number: never empty, no leading zero. */
  function NatToString(n: nat): (s: string)
    ensures |s| >= 1 && AllDigits(s)
    ensures s[0] == '0' ==> n == 0
    decreases n
  {
    if n < 10 then [DigitChar(n)] else NatToString(n / 10) + [DigitChar(n % 10)]
  }

  /** strconv.Itoa, and equally Python's str() of an int. */
  function IntToString(n: int): (s: string)
    ensures |s| >= 1
    ensures s[0] == '-' <==> n < 0
    ensures n >= 0 ==> AllDigits(s)
    ensures n < 0 ==> AllDigits(s[1..])
  {
    if n < 0 then "-" + NatToString(-n) else NatToString(n)
  }

  /** strconv.Atoi: an optional '+' or '-', then one or more decimal digits, and
      a value that fits a 64-bit int; anything else is an error (None). */
  function ParseInt(s: string): (r: Option<int>)
    ensures r.Some? ==> Int64Min <= r.value <= Int64Max
    ensures r.Some? ==> |s| >= 1 && (IsDigit(s[0]) || s[0] == '+' || s[0] == '-')
  {
    if |s| == 0 then None
    else
      var digits := if s[0] == '-' || s[0] == '+' then s[1..] else s;
      if |digits| == 0 || !AllDigits(digits) then None
      else
        var magnitude: int := DigitsValue(digits);
        var v := if s[0] == '-' then -magnitude else magnitude;
        if Int64Min <= v <= Int64Max then Some(v) else None
  }

  lemma {:induction false} NatToStringValue(n: nat)
    ensures DigitsValue(NatToString(n)) == n
    decreases n
  {
    if n >= 10 {
      var s := NatToString(n);
      assert s[..|s| - 1] == NatToString(n / 10);
      NatToStringValue(n / 10);
    }
  }

  /** Reading back what Itoa wrote gives the same number. */
  lemma ParseIntOfIntToString(n: int)
    requires Int64Min <= n <= Int64Max
    ensures ParseInt(IntToString(n)) == Some(n)
  {
    var s := IntToString(n);
    if n < 0 {
      var d := NatToString(-n);
      assert s[1..] == d;
      NatToStringValue(-n);
      assert DigitsValue(d) == -n;
    } else {
      assert IsDigit(s[0]);
      NatToStringValue(n);
    }
  }

  /** Distinct 64-bit numbers have distinct decimal texts. */
  lemma IntToStringInjective(m: int, n: int)
    requires Int64Min <= m <= Int64Max && Int64Min <= n <= Int64Max
    requires IntToString(m) == IntToString(n)
    ensures m == n
  {
    ParseIntOfIntToString(m);
    ParseIntOfIntToString(n);
  }

  /** Decimal text is digits with at most a leading minus sign: no path separator. */
  lemma IntToStringHasNoSeparator(n: int)
    ensures '/' !in IntToString(n)
  {
    var s := IntToString(n);
    if n < 0 {
      var d := NatToString(-n);
      assert s == "-" + d;
      assert forall i :: 0 <= i < |d| ==> d[i] != '/';
    }
  }
}

=== FILE: forms.dfy ===
/** Submitted form fields and the request-size check the BFF places in front of
    its create and update routes (validate_body_length). */
module Forms {

  import opened Optional
  import opened Http
  import opened Decimal

  /** A submitted form: its (name, value) pairs in the order they arrived. A
      name may repeat. */
  type Form = seq<(string, string)>

  /** request.form.get(name): the first value submitted under that name. */
  function FormGet(form: Form, name: string): (v: Option<string>)
    ensures v.None? <==> forall i :: 0 <= i < |form| ==> form[i].0 != name
    ensures v.Some? ==> exists i :: && 0 <= i < |form| && form[i] == (name, v.value)
                                    && forall j :: 0 <= j < i ==> form[j].0 != name
  {
    if |form| == 0 then None
    else if form[0].0 == name then Some(form[0].1)
    else
      var rest := FormGet(form[1..], name);
      assert forall i :: 0 <= i < |form[1..]| ==> form[1..][i] == form[i + 1];
      rest
  }

  /** The names of a form, as a set. */
  function Names(form: Form): set<string> {
    set i | 0 <= i < |form| :: form[i].0
  }

  /** The pairs of `form` whose name is not in `seen`, each name kept at its
      first occurrence only. */
  function FirstOccurrences(form: Form, seen: set<string>): (d: Form)
    ensures forall i :: 0 <= i < |d| ==> d[i].0 !in seen && FormGet(form, d[i].0) == Some(d[i].1)
    ensures forall i, j :: 0 <= i < j < |d| ==> d[i].0 != d[j].0
    decreases |form|
  {
    if |form| == 0 then []
    else if form[0].0 in seen then FirstOccurrences(form[1..], seen)
    else [form[0]] + FirstOccurrences(form[1..], seen + {form[0].0})
  }

  /** Every name of the form outside `seen` has its entry: `j` is where. */
  lemma {:induction false} FirstOccurrencesCover(form: Form, seen: set<string>, i: nat) returns (j: nat)
    requires i < |form| && form[i].0 !in seen
    ensures j < |FirstOccurrences(form, seen)| && FirstOccurrences(form, seen)[j].0 == form[i].0
    decreases |form|
  {
    if form[0].0 in seen {
      assert i >= 1 && form[1..][i - 1] == form[i];
      j := FirstOccurrencesCover(form[1..], seen, i - 1);
    } else if form[i].0 == form[0].0 {
      j := 0;
    } else {
      assert i >= 1 && form[1..][i - 1] == form[i];
      var k := FirstOccurrencesCover(form[1..], seen + {form[0].0}, i - 1);
      var rest := FirstOccurrences(form[1..], seen + {form[0].0});
      assert FirstOccurrences(form, seen) == [form[0]] + rest;
      j := k + 1;
    }
  }

  /** request.form.to_dict(): one entry per name, holding its first value, in
      the order the names first appear. */
  function ToDict(form: Form): (d: Form)
    ensures forall i :: 0 <= i < |d| ==> FormGet(form, d[i].0) == Some(d[i].1)
    ensures forall i, j :: 0 <= i < j < |d| ==> d[i].0 != d[j].0
    ensures forall i :: 0 <= i < |form| ==> exists j :: 0 <= j < |d| && d[j].0 == form[i].0
  {
    var d := FirstOccurrences(form, {});
    forall i | 0 <= i < |form|
      ensures exists j :: 0 <= j < |d| && d[j].0 == form[i].0
    {
      var j := FirstOccurrencesCover(form, {}, i);
    }
    d
  }

  /** Python's str.capitalize on ASCII text: first letter upper case, the rest lower. */
  function Capitalize(s: string): (c: string)
    ensures |c| == |s|
  {
    if |s| == 0 then "" else [Upper(s[0])] + seq(|s| - 1, i requires 0 <= i < |s| - 1 => Lower(s[i + 1]))
  }

  function Upper(c: char): char {
    if 'a' <= c <= 'z' then (c as int - 32) as char else c
  }

  function Lower(c: char): char {
    if 'A' <= c <= 'Z' then (c as int + 32) as char else c
  }

  /** The sum of the value lengths. */
  function TotalLength(d: Form): nat {
    if |d| == 0 then 0 else |d[0].1| + TotalLength(d[1..])
  }

  /** Whether an entry breaks the limit set for its name. */
  predicate OverLimit(entry: (string, string), limits: map<string, int>) {
    entry.0 in limits && |entry.1| > limits[entry.0]
  }

  /** The first entry over its limit, in order, if any. */
  function FirstOverLimit(d: Form, limits: map<string, int>): (k: Option<nat>)
    ensures k.None? <==> forall i :: 0 <= i < |d| ==> !OverLimit(d[i], limits)
    ensures k.Some? ==> k.value < |d| && OverLimit(d[k.value], limits)
    ensures k.Some? ==> forall i :: 0 <= i < k.value ==> !OverLimit(d[i], limits)
  {
    if |d| == 0 then None
    else if OverLimit(d[0], limits) then Some(0)
    else
      var k := FirstOverLimit(d[1..], limits);
      if k.None? then None else Some(k.value + 1)
  }

  function FieldTooLong(name: string, limit: int): string {
    Capitalize(name) + " field too long, should not exceed " + IntToString(limit) + " characters."
  }

  function BodyTooLong(maxLength: int): string {
    "Request body too long, should not exceed " + IntToString(maxLength) + " characters."
  }

  /** The limits one route is decorated with. */
  datatype Limits = Limits(maxLength: int, fields: map<string, int>)

  /** The verdict on a dict of fields: the first field over its limit, if
      any, else the total if it is over, else nothing. */
  function DictVerdict(d: Form, limits: Limits): (err: Option<string>)
    ensures err.None? <==>
      (forall i :: 0 <= i < |d| ==> !OverLimit(d[i], limits.fields)) && TotalLength(d) <= limits.maxLength
    ensures (exists i :: 0 <= i < |d| && OverLimit(d[i], limits.fields)) ==>
      exists i :: && 0 <= i < |d| && OverLimit(d[i], limits.fields)
                  && (forall j :: 0 <= j < i ==> !OverLimit(d[j], limits.fields))
                  && err == Some(FieldTooLong(d[i].0, limits.fields[d[i].0]))
  {
    var k := FirstOverLimit(d, limits.fields);
    if k.Some? then Some(FieldTooLong(d[k.value].0, limits.fields[d[k.value].0]))
    else if TotalLength(d) > limits.maxLength then Some(BodyTooLong(limits.maxLength))
    else None
  }

  /** validate_body_length as a verdict: the error message to answer with 400,
      or None to let the request through to the route's handler. */
  function BodyLengthVerdict(verb: Method, form: Form, limits: Limits): (err: Option<string>)
    ensures verb != Post && verb != Put ==> err.None?
    ensures err.None? <==>
      || (verb != Post && verb != Put)
      || ((forall i :: 0 <= i < |ToDict(form)| ==> !OverLimit(ToDict(form)[i], limits.fields))
          && TotalLength(ToDict(form)) <= limits.maxLength)
  {
    if verb != Post && verb != Put then None else DictVerdict(ToDict(form), limits)
  }

  /** The decorator's loop over a dict: stop at the first field over its limit,
      summing every value as it goes, then compare the total. */
  method CheckFields(d: Form, limits: Limits) returns (err: Option<string>)
    ensures err == DictVerdict(d, limits)
  {
    var total := 0;
    var i := 0;
    while i < |d|
      invariant 0 <= i <= |d|
      invariant total + TotalLength(d[i..]) == TotalLength(d)
      invariant forall j :: 0 <= j < i ==> !OverLimit(d[j], limits.fields)
    {
      var (name, value) := d[i];
      assert d[i..][1..] == d[i + 1..];
      if name in limits.fields && |value| > limits.fields[name] {
        assert FirstOverLimit(d, limits.fields) == Some(i);
        return Some(FieldTooLong(name, limits.fields[name]));
      }
      total := total + |value|;
      i := i + 1;
    }
    return if total > limits.maxLength then Some(BodyTooLong(limits.maxLength)) else None;
  }

  /** validate_body_length as the decorator runs it: only POST and PUT are
      checked, on the form's dict. */
  method ValidateBodyLength(verb: Method, form: Form, limits: Limits) returns (err: Option<string>)
    ensures err == BodyLengthVerdict(verb, form, limits)
  {
    if verb != Post && verb != Put {
      return None;
    }
    err := CheckFields(ToDict(form), limits);
  }

  /** The limits on the book routes (add_book, update_book). */
  const BookLimits: Limits := Limits(1000, map["title" := 50, "details" := 250])

  /** The limit on the author and subscriber routes, which has no per-field part. */
  const PersonLimits: Limits := Limits(40, map[])

  /** A value sent again under a name already present is ignored by
      FirstOccurrences. */
  lemma {:induction false} FirstOccurrencesIgnoresRepeat(form: Form, seen: set<string>, name: string, value: string)
    requires name in seen || exists i :: 0 <= i < |form| && form[i].0 == name
    ensures FirstOccurrences(form + [(name, value)], seen) == FirstOccurrences(form, seen)
    decreases |form|
  {
    if |form| == 0 {
      assert form + [(name, value)] == [(name, value)];
      assert [(name, value)][1..] == [];
    } else {
      assert (form + [(name, value)])[1..] == form[1..] + [(name, value)];
      if form[0].0 in seen {
        FirstOccurrencesIgnoresRepeat(form[1..], seen, name, value);
      } else {
        if name != form[0].0 && name !in seen {
          var i :| 0 <= i < |form| && form[i].0 == name;
          assert form[1..][i - 1].0 == name;
        }
        FirstOccurrencesIgnoresRepeat(form[1..], seen + {form[0].0}, name, value);
      }
    }
  }

  /** Sending a field a second time changes nothing about the verdict: only
      the first value of each name is measured. */
  lemma RepeatedFieldIgnored(verb: Method, form: Form, name: string, value: string, limits: Limits)
    requires exists i :: 0 <= i < |form| && form[i].0 == name
    ensures BodyLengthVerdict(verb, form + [(name, value)], limits) == BodyLengthVerdict(verb, form, limits)
  {
    FirstOccurrencesIgnoresRepeat(form, {}, name, value);
  }

  /** A value sent again under a name already present does not change what
      request.form.get reads for any name. */
  lemma {:induction false} FormGetIgnoresRepeat(form: Form, name: string, value: string, key: string)
    requires exists i :: 0 <= i < |form| && form[i].0 == name
    ensures FormGet(form + [(name, value)], key) == FormGet(form, key)
    decreases |form|
  {
    assert (form + [(name, value)])[0] == form[0];
    if form[0].0 != key {
      assert (form + [(name, value)])[1..] == form[1..] + [(name, value)];
      if form[0].0 == name {
        // key differs from name: the appended pair can never be the one read
        FormGetSkipsOther(form[1..], name, value, key);
      } else {
        var i :| 0 <= i < |form| && form[i].0 == name;
        assert form[1..][i - 1].0 == name;
        FormGetIgnoresRepeat(form[1..], name, value, key);
      }
    }
  }

  /** Appending a pair under another name does not change what is read. */
  lemma {:induction false} FormGetSkipsOther(form: Form, name: string, value: string, key: string)
    requires name != key
    ensures FormGet(form + [(name, value)], key) == FormGet(form, key)
    decreases |form|
  {
    if |form| == 0 {
      assert form + [(name, value)] == [(name, value)];
      assert [(name, value)][1..] == [];
    } else {
      assert (form + [(name, value)])[0] == form[0];
      assert (form + [(name, value)])[1..] == form[1..] + [(name, value)];
      FormGetSkipsOther(form[1..], name, value, key);
    }
  }
}

=== FILE: frontend.dfy ===
/** The Flask backend-for-frontend's create, update and delete routes. Each
    handler is a function from the request (method, form fields, uploaded file)
    and the upstream API's scripted answers to the response it gives and the
    calls it made upstream, in order. Paths of upstream calls are written
    without the API_URL prefix. */
module Frontend {

  import opened Optional
  import opened Http
  import opened Decimal
  import opened Forms

  /** A JSON value as Python's json module decodes it. A nested array or object
      is kept only as its printed form and its number of elements. */
  datatype Json = JNull | JBool(b: bool) | JNum(n: int) | JStr(s: string) | JCompound(repr: string, size: nat)

  /** bool(v) in Python. */
  predicate Truthy(v: Json) {
    match v
    case JNull => false
    case JBool(b) => b
    case JNum(n) => n != 0
    case JStr(s) => s != ""
    case JCompound(_, size) => size != 0
  }

  /** v == 0 in Python, which also holds for False. */
  predicate EqualsZero(v: Json) {
    v == JNum(0) || v == JBool(false)
  }

  /** str(v) in Python, as an f-string inserts it. */
  function PyStr(v: Json): string {
    match v
    case JNull => "None"
    case JBool(b) => if b then "True" else "False"
    case JNum(n) => IntToString(n)
    case JStr(s) => s
    case JCompound(repr, _) => repr
  }

  /** What response.json() makes of an upstream body: an error (not JSON), a
      dict, or some other JSON value. */
  datatype Doc = NotJson | ObjectDoc(fields: map<string, Json>) | OtherDoc(value: Json)

  datatype Reply = Reply(status: int, doc: Doc)

  /** The upstream's answers to a handler's calls, in order. A call past the end
      of the script fails in transport: requests raises ConnectionError. */
  type Script = seq<Reply>

  function Answer(script: Script, i: nat): (a: Option<Reply>)
    ensures a.Some? <==> i < |script|
    ensures a.Some? ==> a.value == script[i]
  {
    if i < |script| then Some(script[i]) else None
  }

  /** The JSON documents the handlers send. A form field that is absent is None,
      sent as null. */
  datatype Payload =
    | AuthorJson(firstname: Option<string>, lastname: Option<string>, photo: Option<string>)
    | BookJson(title: Option<string>, details: Option<string>, authorId: int, isBorrowed: bool, photo: Option<string>)
    | SubscriberJson(firstname: Option<string>, lastname: Option<string>, email: Option<string>)
    | CredentialsJson(email: Option<string>, password: Option<string>)
    | PhotoFile(path: string)
    | NoPayload

  datatype Call = Call(verb: Method, path: string, payload: Payload)

  /** The error text of a JSON reply: a JSON value (read from the upstream or a
      fixed text), or the text of a caught exception. */
  datatype Detail = Value(v: Json) | ExceptionText

  /** A Set-Cookie header; `expires` in seconds since the epoch. */
  datatype Cookie = Cookie(name: string, value: Json, expires: int)

  datatype Response =
    | Redirect(location: string, cookie: Option<Cookie>)
    | JsonReply(status: int, success: Option<bool>, error: Option<Detail>)
    | Page(template: string, shown: Option<Json>)   // render_template, with the error passed to it
    | Fault(status: int)   // an exception no handler caught, or a Flask abort

  datatype Exchange = Exchange(response: Response, calls: seq<Call>)

  /** response.json().get(key, default): None when that raises, because the body
      is not JSON or not a dict. */
  function DocGet(doc: Doc, key: string, default: Json): (v: Option<Json>)
    ensures v.Some? <==> doc.ObjectDoc?
    ensures v.Some? && key in doc.fields ==> v.value == doc.fields[key]
    ensures v.Some? && key !in doc.fields ==> v.value == default
  {
    if doc.ObjectDoc? then Some(if key in doc.fields then doc.fields[key] else default) else None
  }

  /** The error text reported after reading `error` from an upstream reply: the
      upstream's value or the default, or the exception reading it raised. */
  function ErrorDetail(doc: Doc, default: string): (d: Detail)
    ensures d.ExceptionText? <==> !doc.ObjectDoc?
  {
    var e := DocGet(doc, "error", JStr(default));
    if e.Some? then Value(e.value) else ExceptionText
  }

  /** The uploaded file field: None when the form has no such part, else the
      file name the client gave (empty when no file was chosen). */
  type FileField = Option<string>

  /** A FileStorage is true when it has a file name. */
  predicate FileTruthy(f: FileField) {
    f.Some? && f.value != ""
  }

  /** Where the BFF saves an upload: static/uploads plus the sanitised name. */
  function SavedPath(secure: string -> string, f: FileField): string
    requires f.Some?
  {
    "static/uploads/" + secure(f.value)
  }

  /** No call in the list asks the upstream to delete anything. */
  predicate NoDeletes(calls: seq<Call>) {
    forall i :: 0 <= i < |calls| ==> calls[i].verb != Delete
  }

  /** A JSON error reply for a caught exception. */
  const CaughtFailure: Response := JsonReply(InternalServerError, Some(false), Some(ExceptionText))

  /** validate_body_length wrapped around a handler: a rejection answers 400 and
      the handler never runs. */
  function Guarded(verb: Method, form: Form, limits: Limits, inner: Exchange): (x: Exchange)
    ensures BodyLengthVerdict(verb, form, limits).Some? ==>
      x == Exchange(JsonReply(BadRequest, Some(false), Some(Value(JStr(BodyLengthVerdict(verb, form, limits).value)))), [])
    ensures BodyLengthVerdict(verb, form, limits).None? ==> x == inner
  {
    var err := BodyLengthVerdict(verb, form, limits);
    if err.Some? then Exchange(JsonReply(BadRequest, Some(false), Some(Value(JStr(err.value)))), [])
    else inner
  }

  // ---------------------------------------------------------------- authors

  function AuthorCreateCall(form: Form): Call {
    Call(Post, "/authors/new", AuthorJson(FormGet(form, "firstname"), FormGet(form, "lastname"), Some("")))
  }

  /** The id add_author reads from a create reply: .get("id", 0). */
  function AuthorIdOf(reply: Reply): Option<Json> {
    DocGet(reply.doc, "id", JNum(0))
  }

  /** Whether the create reply lets add_author go on to the photo: 201, a dict,
      and an id that is not 0. */
  predicate AuthorCreated(script: Script) {
    |script| >= 1 && script[0].status == Created && AuthorIdOf(script[0]).Some? && !EqualsZero(AuthorIdOf(script[0]).value)
  }

  /** add_author's POST branch, once the form has passed the length check. The
      author is created with an empty photo; then, when a file was chosen, the
      file is forwarded to the photo upload of the new id. Only a 201 create is
      taken as success, and no path deletes the author again. A missing file
      part raises before anything is sent, outside the view's try; the BFF runs
      in debug mode, where Flask turns that error into a 500. */
  function PostAuthor(form: Form, photo: FileField, secure: string -> string, script: Script): (x: Exchange)
    ensures photo.None? ==> x == Exchange(Fault(InternalServerError), [])
    ensures x.response.Redirect? <==>
      photo.Some? && AuthorCreated(script) && (FileTruthy(photo) ==> |script| >= 2 && script[1].status == OK)
    ensures x.response.Redirect? ==> x.response == Redirect("/authors", None)
    ensures photo.Some? && !x.response.Redirect? ==>
      x.response.JsonReply? && x.response.status == InternalServerError && x.response.success == Some(false)
    ensures photo.Some? ==> 1 <= |x.calls| <= 2 && x.calls[0] == AuthorCreateCall(form)
    ensures |x.calls| == 2 <==> AuthorCreated(script) && FileTruthy(photo)
    ensures |x.calls| == 2 ==>
      x.calls[1] == Call(Post, "/author/photo/" + PyStr(AuthorIdOf(script[0]).value), PhotoFile(SavedPath(secure, photo)))
    ensures forall i :: 0 <= i < |x.calls| ==> x.calls[i].verb == Post
  {
    if photo.None? then Exchange(Fault(InternalServerError), [])
    else
      var create := AuthorCreateCall(form);
      var reply := Answer(script, 0);
      if reply.None? || reply.value.status != Created then
        // a 201 is the only success; the other branch's error text names a
        // variable that is never bound there, so it raises and is caught
        Exchange(CaughtFailure, [create])
      else
        var id := AuthorIdOf(reply.value);
        if id.None? then Exchange(CaughtFailure, [create])
        else if EqualsZero(id.value) then
          Exchange(JsonReply(InternalServerError, Some(false), Some(ErrorDetail(reply.value.doc, "Failed to add author"))), [create])
        else if !FileTruthy(photo) then Exchange(Redirect("/authors", None), [create])
        else
          var upload := Call(Post, "/author/photo/" + PyStr(id.value), PhotoFile(SavedPath(secure, photo)));
          var sent := Answer(script, 1);
          if sent.None? then Exchange(CaughtFailure, [create, upload])
          else if sent.value.status == OK then Exchange(Redirect("/authors", None), [create, upload])
          else Exchange(JsonReply(InternalServerError, Some(false), Some(ErrorDetail(sent.value.doc, "Failed to add author"))), [create, upload])
  }

  /** add_author (GET and POST /add_author, at most 40 characters of form; the
      route answers any other method 405 before the view runs). */
  function AddAuthor(verb: Method, form: Form, photo: FileField, secure: string -> string, script: Script): (x: Exchange)
    ensures verb != Get && verb != Post ==> x == Exchange(Fault(MethodNotAllowed), [])
    ensures verb == Get ==> x == Exchange(Page("add_author_form.html", None), [])
    ensures verb == Post && BodyLengthVerdict(verb, form, PersonLimits).Some? ==>
      x == Exchange(JsonReply(BadRequest, Some(false), Some(Value(JStr(BodyLengthVerdict(verb, form, PersonLimits).value)))), [])
    ensures verb == Post && BodyLengthVerdict(verb, form, PersonLimits).None? ==>
      x == PostAuthor(form, photo, secure, script)
    ensures NoDeletes(x.calls)
  {
    if verb != Get && verb != Post then Exchange(Fault(MethodNotAllowed), [])
    else Guarded(verb, form, PersonLimits,
      if verb == Get then Exchange(Page("add_author_form.html", None), [])
      else PostAuthor(form, photo, secure, script))
  }

  // ------------------------------------------------------------------ books

  /** Whether raise_for_status raises: a 4xx or 5xx status. */
  predicate RaisesForStatus(status: int) {
    400 <= status < 600
  }

  /** The author field as int() reads it; None when it is absent or int()
      raises. */
  function AuthorField(form: Form, pyInt: string -> Option<int>): Option<int> {
    var text := FormGet(form, "author");
    if text.None? then None else pyInt(text.value)
  }

  /** The book document add_book and update_book send. The borrowed flag is set
      exactly when the is_borrowed field is "on". */
  function BookPayload(form: Form, authorId: int, photo: Option<string>): (p: Payload)
    ensures p.BookJson? && p.authorId == authorId && p.photo == photo
    ensures p.isBorrowed <==> FormGet(form, "is_borrowed") == Some("on")
  {
    BookJson(FormGet(form, "title"), FormGet(form, "details"), authorId, FormGet(form, "is_borrowed") == Some("on"), photo)
  }

  /** The id add_book reads from a create reply: .get("id"). */
  function BookIdOf(reply: Reply): Option<Json> {
    DocGet(reply.doc, "id", JNull)
  }

  /** Whether the create reply lets add_book go on: no error status, a dict, and
      a truthy id. */
  predicate BookCreated(script: Script) {
    |script| >= 1 && !RaisesForStatus(script[0].status) && BookIdOf(script[0]).Some? && Truthy(BookIdOf(script[0]).value)
  }

  /** add_book's POST branch, once the form has passed the length check. The
      book is created with an empty photo, then the file is forwarded to the
      new id's photo upload. A missing file part (under the BFF's debug mode)
      and an author field int() cannot read both end in an uncaught error, 500,
      before anything is sent. Every failure after the create renders the form with a variable
      that is never bound on that path, so each ends in an uncaught error, 500. */
  function PostBook(form: Form, photo: FileField, secure: string -> string,
                    pyInt: string -> Option<int>, script: Script): (x: Exchange)
    ensures photo.None? ==> x == Exchange(Fault(InternalServerError), [])
    ensures photo.Some? && AuthorField(form, pyInt).None? ==> x == Exchange(Fault(InternalServerError), [])
    ensures x.response.Redirect? <==>
      && photo.Some? && AuthorField(form, pyInt).Some? && BookCreated(script)
      && (FileTruthy(photo) ==> |script| >= 2 && script[1].status == OK)
    ensures x.response.Redirect? ==> x.response == Redirect("/", None)
    ensures photo.Some? && !x.response.Redirect? ==> x.response == Fault(InternalServerError)
    ensures |x.calls| <= 2
    ensures |x.calls| >= 1 ==>
      AuthorField(form, pyInt).Some? && x.calls[0] == Call(Post, "/books/new", BookPayload(form, AuthorField(form, pyInt).value, Some("")))
    ensures |x.calls| == 2 <==> |x.calls| >= 1 && BookCreated(script) && FileTruthy(photo)
    ensures |x.calls| == 2 ==>
      x.calls[1] == Call(Post, "/books/photo/" + PyStr(BookIdOf(script[0]).value), PhotoFile(SavedPath(secure, photo)))
    ensures forall i :: 0 <= i < |x.calls| ==> x.calls[i].verb == Post
  {
    if photo.None? then Exchange(Fault(InternalServerError), [])
    else
      var authorId := AuthorField(form, pyInt);
      if authorId.None? then Exchange(Fault(InternalServerError), [])
      else
        var create := Call(Post, "/books/new", BookPayload(form, authorId.value, Some("")));
        if !BookCreated(script) then Exchange(Fault(InternalServerError), [create])
        else
          var id := BookIdOf(script[0]).value;
          if !FileTruthy(photo) then Exchange(Redirect("/", None), [create])
          else
            var upload := Call(Post, "/books/photo/" + PyStr(id), PhotoFile(SavedPath(secure, photo)));
            var sent := Answer(script, 1);
            if sent.Some? && sent.value.status == OK then Exchange(Redirect("/", None), [create, upload])
            else Exchange(Fault(InternalServerError), [create, upload])
  }

  /** add_book with no photo chosen: once the create is accepted, its one call
      is the create and the user is sent to the index. */
  lemma PostBookWithoutPhoto(form: Form, secure: string -> string, pyInt: string -> Option<int>, script: Script)
    requires AuthorField(form, pyInt).Some?
    requires BookCreated(script)
    ensures PostBook(form, Some(""), secure, pyInt, script)
              == Exchange(Redirect("/", None), [Call(Post, "/books/new", BookPayload(form, AuthorField(form, pyInt).value, Some("")))])
  {
    assert !FileTruthy(Some(""));
  }

  /** add_book (GET and POST /add_book; 1000 characters, title 50, details 250).
      A GET fetches the author list and renders the form whatever the answer. */
  function AddBook(verb: Method, form: Form, photo: FileField, secure: string -> string,
                   pyInt: string -> Option<int>, script: Script): (x: Exchange)
    ensures verb != Get && verb != Post ==> x == Exchange(Fault(MethodNotAllowed), [])
    ensures verb == Get ==> x == Exchange(Page("add_book_form.html", None), [Call(Get, "/authors", NoPayload)])
    ensures verb == Post && BodyLengthVerdict(verb, form, BookLimits).Some? ==>
      x == Exchange(JsonReply(BadRequest, Some(false), Some(Value(JStr(BodyLengthVerdict(verb, form, BookLimits).value)))), [])
    ensures verb == Post && BodyLengthVerdict(verb, form, BookLimits).None? ==>
      x == PostBook(form, photo, secure, pyInt, script)
    ensures NoDeletes(x.calls)
  {
    if verb != Get && verb != Post then Exchange(Fault(MethodNotAllowed), [])
    else Guarded(verb, form, BookLimits,
      if verb == Get then Exchange(Page("add_book_form.html", None), [Call(Get, "/authors", NoPayload)])
      else PostBook(form, photo, secure, pyInt, script))
  }

  // ------------------------------------------------------------ subscribers

  /** add_subscriber (GET and POST /add_subscriber, at most 40 characters of
      form): 200 from the create goes to the subscriber list, anything else is a
      500 JSON error. */
  function AddSubscriber(verb: Method, form: Form, script: Script): (x: Exchange)
    ensures verb != Get && verb != Post ==> x == Exchange(Fault(MethodNotAllowed), [])
    ensures verb == Get ==> x == Exchange(Page("add_subscriber.html", None), [])
    ensures verb == Post && BodyLengthVerdict(verb, form, PersonLimits).Some? ==>
      x == Exchange(JsonReply(BadRequest, Some(false), Some(Value(JStr(BodyLengthVerdict(verb, form, PersonLimits).value)))), [])
    ensures x.response.Redirect? <==>
      verb == Post && BodyLengthVerdict(verb, form, PersonLimits).None? && |script| >= 1 && script[0].status == OK
    ensures x.response.Redirect? ==> x.response == Redirect("/subscribers", None)
    ensures verb == Post && BodyLengthVerdict(verb, form, PersonLimits).None? && !x.response.Redirect? ==>
      x.response.JsonReply? && x.response.status == InternalServerError
    ensures verb == Post && BodyLengthVerdict(verb, form, PersonLimits).None? ==>
      x.calls == [Call(Post, "/subscribers/new",
                       SubscriberJson(FormGet(form, "firstname"), FormGet(form, "lastname"), FormGet(form, "email")))]
  {
    if verb != Get && verb != Post then Exchange(Fault(MethodNotAllowed), [])
    else Guarded(verb, form, PersonLimits,
      if verb == Get then Exchange(Page("add_subscriber.html", None), [])
      else
        var create := Call(Post, "/subscribers/new",
                           SubscriberJson(FormGet(form, "firstname"), FormGet(form, "lastname"), FormGet(form, "email")));
        var reply := Answer(script, 0);
        if reply.None? then Exchange(CaughtFailure, [create])
        else if reply.value.status == OK then Exchange(Redirect("/subscribers", None), [create])
        else Exchange(JsonReply(InternalServerError, Some(false), Some(ErrorDetail(reply.value.doc, "Failed to add subscriber"))), [create]))
  }

  // ---------------------------------------------------------------- updates

  /** The photo an update sends: the new upload's path when a file was chosen,
      else the form's existing_photo, unchanged. */
  function UpdatedPhoto(form: Form, photo: FileField, prefix: string, secure: string -> string): (p: Option<string>)
    ensures FileTruthy(photo) ==> p == Some(prefix + secure(photo.value))
    ensures !FileTruthy(photo) ==> p == FormGet(form, "existing_photo")
  {
    if FileTruthy(photo) then Some(prefix + secure(photo.value)) else FormGet(form, "existing_photo")
  }

  /** update_author (POST /author/<id>, at most 40 characters of form). The id
      comes from the route's int converter, so it is a natural number. */
  function UpdateAuthor(authorId: nat, form: Form, photo: FileField, secure: string -> string, script: Script): (x: Exchange)
    ensures BodyLengthVerdict(Post, form, PersonLimits).Some? ==>
      x == Exchange(JsonReply(BadRequest, Some(false), Some(Value(JStr(BodyLengthVerdict(Post, form, PersonLimits).value)))), [])
    ensures BodyLengthVerdict(Post, form, PersonLimits).None? ==>
      x.calls == [Call(Put, "/authors/" + IntToString(authorId),
                       AuthorJson(FormGet(form, "firstname"), FormGet(form, "lastname"),
                                  UpdatedPhoto(form, photo, "/uploads/", secure)))]
    ensures BodyLengthVerdict(Post, form, PersonLimits).None? ==>
      x.response == (if |script| == 0 then CaughtFailure
                     else if script[0].status == OK then JsonReply(OK, Some(true), None)
                     else JsonReply(BadRequest, Some(false), Some(Value(JStr("Error updating author")))))
  {
    Guarded(Post, form, PersonLimits,
      var put := Call(Put, "/authors/" + IntToString(authorId),
                      AuthorJson(FormGet(form, "firstname"), FormGet(form, "lastname"),
                                 UpdatedPhoto(form, photo, "/uploads/", secure)));
      var reply := Answer(script, 0);
      if reply.None? then Exchange(CaughtFailure, [put])
      else if reply.value.status != OK then Exchange(JsonReply(BadRequest, Some(false), Some(Value(JStr("Error updating author")))), [put])
      else Exchange(JsonReply(OK, Some(true), None), [put]))
  }

  /** update_book (POST /book/<id>; 1000 characters, title 50, details 250).
      Everything, the missing file part and a bad author id included, is inside
      the handler's try, so every failure is a 500 JSON error. */
  function UpdateBook(bookId: nat, form: Form, photo: FileField, secure: string -> string,
                      pyInt: string -> Option<int>, script: Script): (x: Exchange)
    ensures BodyLengthVerdict(Post, form, BookLimits).Some? ==>
      x == Exchange(JsonReply(BadRequest, Some(false), Some(Value(JStr(BodyLengthVerdict(Post, form, BookLimits).value)))), [])
    ensures BodyLengthVerdict(Post, form, BookLimits).None? && (photo.None? || AuthorField(form, pyInt).None?) ==>
      x == Exchange(CaughtFailure, [])
    ensures BodyLengthVerdict(Post, form, BookLimits).None? && photo.Some? && AuthorField(form, pyInt).Some? ==>
      && x.calls == [Call(Put, "/books/" + IntToString(bookId),
                          BookPayload(form, AuthorField(form, pyInt).value, UpdatedPhoto(form, photo, "photos/", secure)))]
      && x.response == (if |script| == 0 then CaughtFailure
                        else if script[0].status == OK then Redirect("/book-details/" + IntToString(bookId), None)
                        else JsonReply(BadRequest, Some(false), Some(Value(JStr("Error updating book")))))
  {
    Guarded(Post, form, BookLimits,
      if photo.None? then Exchange(CaughtFailure, [])
      else
        var authorId := AuthorField(form, pyInt);
        if authorId.None? then Exchange(CaughtFailure, [])
        else
          var put := Call(Put, "/books/" + IntToString(bookId),
                          BookPayload(form, authorId.value, UpdatedPhoto(form, photo, "photos/", secure)));
          var reply := Answer(script, 0);
          if reply.None? then Exchange(CaughtFailure, [put])
          else if reply.value.status != OK then Exchange(JsonReply(BadRequest, Some(false), Some(Value(JStr("Error updating book")))), [put])
          else Exchange(Redirect("/book-details/" + IntToString(bookId), None), [put]))
  }

  // ---------------------------------------------------------------- deletes

  /** The shared shape of delete_author and delete_book: one DELETE upstream;
      200 is success, any other status 400, a transport failure 500. */
  function Remove(path: string, script: Script): (x: Exchange)
    ensures x.calls == [Call(Delete, path, NoPayload)]
    ensures x.response.JsonReply?
    ensures x.response.success == Some(true) <==> |script| >= 1 && script[0].status == OK
    ensures x.response.status == (if |script| == 0 then InternalServerError else if script[0].status == OK then OK else BadRequest)
  {
    var call := Call(Delete, path, NoPayload);
    var reply := Answer(script, 0);
    if reply.None? then Exchange(CaughtFailure, [call])
    else if reply.value.status != OK then Exchange(JsonReply(BadRequest, Some(false), None), [call])
    else Exchange(JsonReply(OK, Some(true), None), [call])
  }

  /** delete_author (DELETE /author/<id>). */
  function DeleteAuthor(authorId: nat, script: Script): (x: Exchange)
    ensures x.calls == [Call(Delete, "/authors/" + IntToString(authorId), NoPayload)]
    ensures x.response.JsonReply?
    ensures x.response.success == Some(true) <==> |script| >= 1 && script[0].status == OK
  {
    Remove("/authors/" + IntToString(authorId), script)
  }

  /** delete_book (DELETE /book/<id>). */
  function DeleteBook(bookId: nat, script: Script): (x: Exchange)
    ensures x.calls == [Call(Delete, "/books/" + IntToString(bookId), NoPayload)]
    ensures x.response.JsonReply?
    ensures x.response.success == Some(true) <==> |script| >= 1 && script[0].status == OK
  {
    Remove("/books/" + IntToString(bookId), script)
  }

  // ---------------------------------------------------------------- properties

  /** A photo upload that fails, or never gets an answer, never ends in a
      redirect, for authors or for books. */
  lemma PhotoFailureNeverRedirects(form: Form, photo: FileField, secure: string -> string,
                                   pyInt: string -> Option<int>, script: Script)
    requires FileTruthy(photo)
    requires |script| < 2 || script[1].status != OK
    ensures !AddAuthor(Post, form, photo, secure, script).response.Redirect?
    ensures !AddBook(Post, form, photo, secure, pyInt, script).response.Redirect?
  {
  }

  /** A form the length check refuses reaches no handler: 400 and no call
      upstream. Here for the three person forms, under the person limits. */
  lemma RejectedPersonFormMakesNoCalls(form: Form, photo: FileField, secure: string -> string, script: Script, id: nat)
    requires BodyLengthVerdict(Post, form, PersonLimits).Some?
    ensures AddAuthor(Post, form, photo, secure, script).calls == []
    ensures AddSubscriber(Post, form, script).calls == []
    ensures UpdateAuthor(id, form, photo, secure, script).calls == []
    ensures AddAuthor(Post, form, photo, secure, script).response.status == BadRequest
    ensures AddSubscriber(Post, form, script).response.status == BadRequest
    ensures UpdateAuthor(id, form, photo, secure, script).response.status == BadRequest
  {
  }

  /** The same for the two book forms, under the book limits. */
  lemma RejectedBookFormMakesNoCalls(form: Form, photo: FileField, secure: string -> string,
                                     pyInt: string -> Option<int>, script: Script, id: nat)
    requires BodyLengthVerdict(Post, form, BookLimits).Some?
    ensures AddBook(Post, form, photo, secure, pyInt, script).calls == []
    ensures UpdateBook(id, form, photo, secure, pyInt, script).calls == []
    ensures AddBook(Post, form, photo, secure, pyInt, script).response.status == BadRequest
    ensures UpdateBook(id, form, photo, secure, pyInt, script).response.status == BadRequest
  {
  }
}

=== FILE: frontend_auth.dfy ===
/** The backend-for-frontend's sign-up, login and logout views: how the API's
    answer becomes a redirect, a re-rendered form or a JSON error. */
module FrontendAuth {

  import opened Optional
  import opened Http
  import opened Forms
  import opened Frontend

  /** timedelta(days=1), in seconds. */
  const CookieLifetime: int := 24 * 60 * 60

  /** The JSON both views send: the form's email and password. */
  function CredentialsCall(path: string, form: Form): Call {
    Call(Post, path, CredentialsJson(FormGet(form, "email"), FormGet(form, "password")))
  }

  /** The reply's "message" field, read with .get: None when the body is not a dict. */
  function MessageOf(reply: Reply): Option<Json> {
    DocGet(reply.doc, "message", JNull)
  }

  /** signup (GET and POST /register). The body is read as JSON before the
      status is looked at, so a body that is not JSON counts as a failure to
      reach the API, whatever the status. */
  function Signup(verb: Method, form: Form, script: Script): (x: Exchange)
    ensures verb == Get ==> x == Exchange(Page("sign_up.html", None), [])
    ensures verb != Get && verb != Post ==> x == Exchange(Fault(MethodNotAllowed), [])
    ensures verb == Post ==> x.calls == [CredentialsCall("/signup", form)]
    ensures x.response.Redirect? <==> verb == Post && |script| >= 1 && !script[0].doc.NotJson? && script[0].status == Created
    ensures x.response.Redirect? ==> x.response == Redirect("/login", None)
    ensures verb == Post && (|script| == 0 || script[0].doc.NotJson?) ==>
      x.response == JsonReply(InternalServerError, None, Some(Value(JStr("Failed to connect to the external API"))))
    ensures verb == Post && |script| >= 1 && script[0].status in {BadRequest, Conflict} && script[0].doc.ObjectDoc? ==>
      x.response == Page("sign_up.html", Some(MessageOf(script[0]).value))
    ensures verb == Post && |script| >= 1 && script[0].status == InternalServerError && script[0].doc.ObjectDoc? ==>
      x.response == JsonReply(InternalServerError, None, Some(Value(MessageOf(script[0]).value)))
    ensures verb == Post && |script| >= 1 && script[0].status in {BadRequest, Conflict, InternalServerError} && script[0].doc.OtherDoc? ==>
      x.response == Fault(InternalServerError)
    ensures verb == Post && |script| >= 1 && !script[0].doc.NotJson?
            && script[0].status !in {Created, BadRequest, Conflict, InternalServerError} ==>
      x.response == JsonReply(script[0].status, None, Some(Value(JStr("An unexpected error occurred"))))
  {
    if verb == Get then Exchange(Page("sign_up.html", None), [])
    else if verb != Post then Exchange(Fault(MethodNotAllowed), [])
    else
      var call := CredentialsCall("/signup", form);
      var reply := Answer(script, 0);
      if reply.None? || reply.value.doc.NotJson? then
        Exchange(JsonReply(InternalServerError, None, Some(Value(JStr("Failed to connect to the external API")))), [call])
      else
        var r := reply.value;
        if r.status == Created then Exchange(Redirect("/login", None), [call])
        else if r.status == BadRequest || r.status == Conflict then
          var message := MessageOf(r);
          if message.None? then Exchange(Fault(InternalServerError), [call])
          else Exchange(Page("sign_up.html", Some(message.value)), [call])
        else if r.status == InternalServerError then
          var message := MessageOf(r);
          if message.None? then Exchange(Fault(InternalServerError), [call])
          else Exchange(JsonReply(InternalServerError, None, Some(Value(message.value))), [call])
        else Exchange(JsonReply(r.status, None, Some(Value(JStr("An unexpected error occurred")))), [call])
  }

  const ApiUnreachable: Response := JsonReply(InternalServerError, None, Some(Value(JStr("Failed to connect to the API"))))

  /** login (GET and POST /login). `now` is the BFF host's naive local clock
      reading, in whole seconds; the cookie's expiry is that reading plus a day,
      which werkzeug writes out as if it were UTC. So on a host whose clock is
      `offset` seconds ahead of UTC, the cookie runs out `offset` seconds after
      a day has really passed. On 200 the token from the reply is set as the
      "token" cookie. A status outside 200, 400, 404 and 500 reaches the end of
      the view, which then returns nothing, and Flask answers 500. */
  function Login(verb: Method, form: Form, script: Script, now: int): (x: Exchange)
    ensures verb == Get ==> x == Exchange(Page("login.html", None), [])
    ensures verb != Get && verb != Post ==> x == Exchange(Fault(MethodNotAllowed), [])
    ensures verb == Post ==> x.calls == [CredentialsCall("/login", form)]
    ensures x.response.Redirect? <==> verb == Post && |script| >= 1 && script[0].status == OK && script[0].doc.ObjectDoc?
    ensures x.response.Redirect? ==>
      x.response == Redirect("/", Some(Cookie("token", DocGet(script[0].doc, "token", JNull).value, now + CookieLifetime)))
    ensures verb == Post && |script| == 0 ==> x.response == ApiUnreachable
    ensures verb == Post && |script| >= 1 && script[0].status in {BadRequest, NotFound} && script[0].doc.ObjectDoc? ==>
      x.response == Page("login.html", Some(MessageOf(script[0]).value))
    ensures verb == Post && |script| >= 1 && script[0].status in {OK, BadRequest, NotFound} ==>
      (script[0].doc.NotJson? <==> x.response == ApiUnreachable)
    ensures verb == Post && |script| >= 1 && script[0].status == InternalServerError ==>
      x.response == JsonReply(InternalServerError, None, Some(Value(JStr("Internal server error"))))
    ensures verb == Post && |script| >= 1 && script[0].status !in {OK, BadRequest, NotFound, InternalServerError} ==>
      x.response == Fault(InternalServerError)
  {
    if verb == Get then Exchange(Page("login.html", None), [])
    else if verb != Post then Exchange(Fault(MethodNotAllowed), [])
    else
      var call := CredentialsCall("/login", form);
      var reply := Answer(script, 0);
      if reply.None? then Exchange(ApiUnreachable, [call])
      else
        var r := reply.value;
        if r.status == OK || r.status == BadRequest || r.status == NotFound then
          if r.doc.NotJson? then Exchange(ApiUnreachable, [call])
          else if r.doc.OtherDoc? then Exchange(Fault(InternalServerError), [call])
          else if r.status == OK then
            var token := DocGet(r.doc, "token", JNull).value;
            Exchange(Redirect("/", Some(Cookie("token", token, now + CookieLifetime))), [call])
          else Exchange(Page("login.html", Some(MessageOf(r).value)), [call])
        else if r.status == InternalServerError then
          Exchange(JsonReply(InternalServerError, None, Some(Value(JStr("Internal server error")))), [call])
        else Exchange(Fault(InternalServerError), [call])
  }

  /** logout (/logout): the token cookie is overwritten with "" and expired at
      the epoch; nothing is sent to the API, so the session itself stays in the
      API's store until it runs out. */
  function Logout(): (x: Exchange)
    ensures x.calls == []
    ensures x.response.Redirect? && x.response.location == "/login"
    ensures x.response.cookie == Some(Cookie("token", JStr(""), 0))
  {
    Exchange(Redirect("/login", Some(Cookie("token", JStr(""), 0))), [])
  }
}

=== FILE: http.dfy ===
/** HTTP vocabulary shared by the Go API and the Flask backend-for-frontend. */
module Http {

  /** OtherMethod is any method besides these four, such as PATCH. */
  datatype Method = Get | Post | Put | Delete | OtherMethod

  const OK: int := 200
  const Created: int := 201
  const Found: int := 302
  const BadRequest: int := 400
  const Unauthorized: int := 401
  const NotFound: int := 404
  const MethodNotAllowed: int := 405
  const Conflict: int := 409
  const InternalServerError: int := 500

  /** A client error: the request was refused as it stood. */
  predicate IsClientError(status: int) {
    400 <= status < 500
  }
}

=== FILE: integration.dfy ===
/** The backend-for-frontend run against the API model: the API's outcomes are
    turned into the replies the BFF reads, and the two halves are followed
    through a whole request. */
module Integration {

  import opened Optional
  import opened Http
  import opened Decimal
  import opened Library
  import Catalog
  import Uploads
  import opened PhotoPaths
  import opened Sessions
  import opened Base64Url
  import Accounts
  import opened Forms
  import Frontend
  import FrontendAuth

  /** The body the create and photo-upload handlers write: {"id": n} after an
      insert; every other body they write (http.Error text, "File uploaded
      successfully: ...") is plain text, which is not JSON. Book lookups write
      JSON objects and are not read through this function. */
  function CreateDoc(body: ApiBody): (d: Frontend.Doc)
    requires !body.BookFound?
    ensures d.ObjectDoc? <==> body.NewId? || body.JsonMessage?
    ensures body.NewId? ==> d.fields == map["id" := Frontend.JNum(body.id)]
  {
    if body.NewId? then Frontend.ObjectDoc(map["id" := Frontend.JNum(body.id)])
    else if body.JsonMessage? then Frontend.ObjectDoc(map["message" := Frontend.JStr(body.text)])
    else Frontend.NotJson
  }

  function AsReply(o: Outcome): Frontend.Reply
    requires !o.body.BookFound?
  {
    Frontend.Reply(o.status, CreateDoc(o.body))
  }

  /** What the BFF's form sends as an author, as the API decodes it. */
  predicate AuthorForm(form: Form, first: string, last: string) {
    FormGet(form, "firstname") == Some(first) && FormGet(form, "lastname") == Some(last)
  }

  /** The API half of adding an author with a photo: the insert answers 201
      with the new id, and the upload for that id answers 200 and records the
      photo's path on the new row. */
  lemma CreateAuthorThenUpload(author: Author, filename: string, s: Store)
    requires Catalog.AuthorComplete(author) && author.photo == ""
    requires 1 <= s.nextAuthorId <= Int64Max
    ensures
      var id := s.nextAuthorId;
      var created := Catalog.AddAuthor(Current, Post, Some(author), s, None);
      var uploaded := Uploads.AddAuthorPhoto(Post, IntToString(id), Some(filename), true, created.store, None);
      && AsReply(created) == Frontend.Reply(Created, Frontend.ObjectDoc(map["id" := Frontend.JNum(id)]))
      && uploaded.status == OK
      && id in uploaded.store.authors && uploaded.store.authors[id] == author.(photo := AuthorPhotoPath(id))
  {
    ParseIntOfIntToString(s.nextAuthorId);
  }

  /** The BFF half of adding an author with a photo: a create answered 201
      with an id, then a successful upload, ends in the redirect, and the
      upload went to that id. */
  lemma AuthorRedirectAfterUpload(form: Form, file: string, secure: string -> string, script: Frontend.Script, id: int)
    requires id != 0
    requires BodyLengthVerdict(Post, form, PersonLimits).None?
    requires file != ""
    requires |script| == 2 && script[1].status == OK
    requires script[0] == Frontend.Reply(Created, Frontend.ObjectDoc(map["id" := Frontend.JNum(id)]))
    ensures
      var x := Frontend.AddAuthor(Post, form, Some(file), secure, script);
      && x.response == Frontend.Redirect("/authors", None)
      && |x.calls| == 2 && x.calls[1].path == "/author/photo/" + IntToString(id)
  {
    assert Frontend.AuthorIdOf(script[0]) == Some(Frontend.JNum(id));
    assert Frontend.AuthorCreated(script);
    assert Frontend.PyStr(Frontend.JNum(id)) == IntToString(id);
  }

  /** add_author against the current API, with a photo: the author is created,
      the photo goes to the new id, the author row ends up holding the photo's
      path, and the user is redirected to the author list. */
  lemma AddAuthorEndToEnd(form: Form, first: string, last: string, file: string, secure: string -> string, s: Store)
    requires AuthorForm(form, first, last) && first != "" && last != ""
    requires BodyLengthVerdict(Post, form, PersonLimits).None?
    requires file != ""
    requires 1 <= s.nextAuthorId <= Int64Max
    ensures
      var id := s.nextAuthorId;
      var created := Catalog.AddAuthor(Current, Post, Some(Author(first, last, "")), s, None);
      var uploaded := Uploads.AddAuthorPhoto(Post, IntToString(id), Some(Frontend.SavedPath(secure, Some(file))), true, created.store, None);
      var x := Frontend.AddAuthor(Post, form, Some(file), secure, [AsReply(created), AsReply(uploaded)]);
      && x.response == Frontend.Redirect("/authors", None)
      && |x.calls| == 2 && x.calls[1].path == "/author/photo/" + IntToString(id)
      && id in uploaded.store.authors && uploaded.store.authors[id] == Author(first, last, AuthorPhotoPath(id))
  {
    var id := s.nextAuthorId;
    var filename := Frontend.SavedPath(secure, Some(file));
    CreateAuthorThenUpload(Author(first, last, ""), filename, s);
    var created := Catalog.AddAuthor(Current, Post, Some(Author(first, last, "")), s, None);
    var uploaded := Uploads.AddAuthorPhoto(Post, IntToString(id), Some(filename), true, created.store, None);
    AuthorRedirectAfterUpload(form, file, secure, [AsReply(created), AsReply(uploaded)], id);
  }

  /** The BFF half: a create answered 200 rather than 201 counts as a failure,
      and nothing more is sent. */
  lemma AuthorFailsOnPlainOk(form: Form, file: string, secure: string -> string, script: Frontend.Script)
    requires BodyLengthVerdict(Post, form, PersonLimits).None?
    requires |script| >= 1 && script[0].status == OK
    ensures
      var x := Frontend.AddAuthor(Post, form, Some(file), secure, script);
      x.response == Frontend.CaughtFailure && |x.calls| == 1
  {
    assert !Frontend.AuthorCreated(script);
  }

  /** add_author against the earlier API, which answers a create with 200: the
      author is stored, yet the user is told it failed, and no photo is sent. */
  lemma AddAuthorAgainstEarlierApi(form: Form, first: string, last: string, photo: string, file: string,
                                   secure: string -> string, s: Store, script: Frontend.Script)
    requires AuthorForm(form, first, last) && first != "" && last != ""
    requires BodyLengthVerdict(Post, form, PersonLimits).None?
    ensures
      var created := Catalog.AddAuthor(Earlier, Post, Some(Author(first, last, photo)), s, None);
      var x := Frontend.AddAuthor(Post, form, Some(file), secure, [AsReply(created)] + script);
      && s.nextAuthorId in created.store.authors
      && x.response == Frontend.CaughtFailure
      && |x.calls| == 1
  {
    var created := Catalog.AddAuthor(Earlier, Post, Some(Author(first, last, photo)), s, None);
    assert created.status == OK;
    AuthorFailsOnPlainOk(form, file, secure, [AsReply(created)] + script);
  }

  /** add_book against either API: the book route takes any non-error status,
      so the earlier API's 200 works as well as the current one's 201. The row
      stored is the book the form sent, decoded as the API decodes it, with no
      photo; the earlier API also drops the form's borrowed flag. */
  lemma AddBookAgainstEitherApi(variant: Variant, form: Form, pyInt: string -> Option<int>,
                                secure: string -> string, s: Store)
    requires variant != Prototype
    requires Frontend.AuthorField(form, pyInt).Some?
    requires BodyLengthVerdict(Post, form, BookLimits).None?
    requires 1 <= s.nextBookId
    requires var sent := DecodedBook(Frontend.BookPayload(form, Frontend.AuthorField(form, pyInt).value, Some("")));
             sent.Some? && Catalog.BookComplete(sent.value)
    ensures
      var payload := Frontend.BookPayload(form, Frontend.AuthorField(form, pyInt).value, Some(""));
      var sent := DecodedBook(payload).value;
      var created := Catalog.AddBook(variant, Post, Some(sent), s, None);
      var x := Frontend.AddBook(Post, form, Some(""), secure, pyInt, [AsReply(created)]);
      && x.calls == [Frontend.Call(Post, "/books/new", payload)]
      && x.response == Frontend.Redirect("/", None)
      && created.store.books == s.books[s.nextBookId := (
           if variant == Current then sent else sent.(isBorrowed := false))]
  {
    var payload := Frontend.BookPayload(form, Frontend.AuthorField(form, pyInt).value, Some(""));
    var sent := DecodedBook(payload).value;
    var created := Catalog.AddBook(variant, Post, Some(sent), s, None);
    BookCreateAccepted(variant, sent, s);
    assert sent.photo == "";
    Frontend.PostBookWithoutPhoto(form, secure, pyInt, [AsReply(created)]);
  }

  /** Either API's answer to a complete book is one add_book goes on from: no
      error status, and a JSON object with the new, non-zero id. */
  lemma BookCreateAccepted(variant: Variant, b: Book, s: Store)
    requires variant != Prototype
    requires Catalog.BookComplete(b)
    requires 1 <= s.nextBookId
    ensures Frontend.BookCreated([AsReply(Catalog.AddBook(variant, Post, Some(b), s, None))])
  {
    var created := Catalog.AddBook(variant, Post, Some(b), s, None);
    assert created.status in {Created, OK} && created.body == NewId(s.nextBookId);
    var script := [AsReply(created)];
    assert Frontend.BookIdOf(script[0]) == Some(Frontend.JNum(s.nextBookId));
  }

  /** A JSON string field as Go's decoder leaves it: null leaves the string
      empty. */
  function OrEmpty(v: Option<string>): string {
    if v.Some? then v.value else ""
  }

  /** The author the API decodes from the BFF's author document. */
  function DecodedAuthor(p: Frontend.Payload): Author
    requires p.AuthorJson?
  {
    Author(OrEmpty(p.firstname), OrEmpty(p.lastname), OrEmpty(p.photo))
  }

  /** The book the API decodes from the BFF's book document: None when the
      author id does not fit Go's 64-bit int, which the decoder refuses, while
      Python's int() has no bound. */
  function DecodedBook(p: Frontend.Payload): (b: Option<Book>)
    requires p.BookJson?
    ensures b.Some? <==> Int64Min <= p.authorId <= Int64Max
    ensures b.Some? ==> b.value.authorId == p.authorId && b.value.isBorrowed == p.isBorrowed
  {
    if Int64Min <= p.authorId <= Int64Max then
      Some(Book(OrEmpty(p.title), p.authorId, OrEmpty(p.photo), p.isBorrowed, OrEmpty(p.details)))
    else None
  }

  /** update_author against the API's UpdateAuthor: the user is told of success
      exactly when the API changed the author's row, and the row then holds what
      the form sent. The API answers an update in plain text. */
  lemma UpdateAuthorAgainstApi(id: nat, form: Form, photo: Frontend.FileField, secure: string -> string, s: Store)
    requires BodyLengthVerdict(Post, form, PersonLimits).None?
    requires id <= Int64Max
    ensures
      var sent := DecodedAuthor(Frontend.AuthorJson(FormGet(form, "firstname"), FormGet(form, "lastname"),
                                                    Frontend.UpdatedPhoto(form, photo, "/uploads/", secure)));
      var api := Catalog.UpdateAuthor(Put, IntToString(id), Some(sent), s, None);
      var x := Frontend.UpdateAuthor(id, form, photo, secure, [Frontend.Reply(api.status, Frontend.NotJson)]);
      && (x.response == Frontend.JsonReply(OK, Some(true), None) <==>
            Catalog.AuthorComplete(sent) && id in s.authors && s.authors[id] != sent)
      && (x.response != Frontend.JsonReply(OK, Some(true), None) ==>
            api.store == s && x.response.JsonReply? && x.response.status == BadRequest)
      && (x.response == Frontend.JsonReply(OK, Some(true), None) ==>
            id in api.store.authors && api.store.authors[id] == sent)
  {
    ParseIntOfIntToString(id);
  }

  /** update_book against the API's UpdateBook: once the form is readable, the
      user is sent to the book's page exactly when the API decoded the book and
      changed the book's row, and the row then holds what the form sent. An
      author id outside Go's int range is refused by the decoder with 400. */
  lemma UpdateBookAgainstApi(id: nat, form: Form, file: string, secure: string -> string,
                             pyInt: string -> Option<int>, s: Store)
    requires BodyLengthVerdict(Post, form, BookLimits).None?
    requires Frontend.AuthorField(form, pyInt).Some?
    requires id <= Int64Max
    ensures
      var sent := DecodedBook(Frontend.BookPayload(form, Frontend.AuthorField(form, pyInt).value,
                                                   Frontend.UpdatedPhoto(form, Some(file), "photos/", secure)));
      var api := Catalog.UpdateBook(Put, IntToString(id), sent, s, None);
      var x := Frontend.UpdateBook(id, form, Some(file), secure, pyInt, [Frontend.Reply(api.status, Frontend.NotJson)]);
      && (x.response.Redirect? <==>
            sent.Some? && Catalog.BookComplete(sent.value) && id in s.books && s.books[id] != sent.value)
      && (!x.response.Redirect? ==> api.store == s && x.response.JsonReply? && x.response.status == BadRequest)
      && (x.response.Redirect? ==> sent.Some? && id in api.store.books && api.store.books[id] == sent.value)
  {
    ParseIntOfIntToString(id);
  }

  /** add_subscriber against the API's AddSubscriber: the user is sent to the
      subscriber list exactly when the API inserted the subscriber, which is
      then stored under the next id as the form sent it; otherwise the user
      gets a 500 and nothing is stored. */
  lemma AddSubscriberAgainstApi(form: Form, s: Store)
    requires BodyLengthVerdict(Post, form, PersonLimits).None?
    ensures
      var sent := Subscriber(OrEmpty(FormGet(form, "firstname")), OrEmpty(FormGet(form, "lastname")),
                             OrEmpty(FormGet(form, "email")));
      var api := Catalog.AddSubscriber(Post, Some(sent), s, None);
      var x := Frontend.AddSubscriber(Post, form, [AsReply(api)]);
      && (x.response.Redirect? <==> Catalog.SubscriberComplete(sent))
      && (x.response.Redirect? ==>
            s.nextSubscriberId in api.store.subscribers && api.store.subscribers[s.nextSubscriberId] == sent)
      && (!x.response.Redirect? ==>
            api.store == s && x.response.JsonReply? && x.response.status == InternalServerError)
  {
  }

  /** delete_author against the API's DeleteAuthor: success exactly when the
      API removed the author. An author who still has books is refused by the
      API with 400, and a missing one with 404; the BFF reports both as 400.
      The API answers deletes in plain text. */
  lemma DeleteAuthorAgainstApi(id: nat, s: Store)
    requires id <= Int64Max
    ensures
      var api := Catalog.DeleteAuthor(Delete, IntToString(id), s, None);
      var x := Frontend.DeleteAuthor(id, [Frontend.Reply(api.status, Frontend.NotJson)]);
      && (x.response.success == Some(true) <==> id in s.authors && BooksOf(s, id, None) == {})
      && (x.response.success == Some(true) ==> api.store.authors == s.authors - {id})
      && (x.response.success != Some(true) ==> api.store == s && x.response.status == BadRequest)
  {
    ParseIntOfIntToString(id);
  }

  /** delete_book against the API's DeleteBook: success exactly when the book
      existed; the book is then gone, and so is its author if the author had no
      other book. A missing book, which the API answers 500, reaches the user as
      400. */
  lemma DeleteBookAgainstApi(id: nat, s: Store)
    requires id <= Int64Max
    ensures
      var api := Catalog.DeleteBook(Delete, IntToString(id), s, None);
      var x := Frontend.DeleteBook(id, [Frontend.Reply(api.status, Frontend.NotJson)]);
      && (x.response.success == Some(true) <==> id in s.books)
      && (x.response.success == Some(true) ==>
            && api.store.books == s.books - {id}
            && api.store.authors == (if BooksOf(s, s.books[id].authorId, Some(id)) == {}
                                     then s.authors - {s.books[id].authorId} else s.authors))
      && (id !in s.books ==>
            api.status == InternalServerError && api.store == s && x.response.status == BadRequest)
  {
    ParseIntOfIntToString(id);
  }

  /** The API's login reply as JSON: token, user id and message on success,
      the message alone otherwise. */
  function LoginDoc(reply: Accounts.AuthReply): (d: Frontend.Doc)
    ensures d.ObjectDoc? && "message" in d.fields
    ensures reply.token.Some? <==> "token" in d.fields
  {
    var message := map["message" := Frontend.JStr(reply.message)];
    if reply.token.Some? && reply.userId.Some? then
      Frontend.ObjectDoc(message["token" := Frontend.JStr(reply.token.value)]["existingUserID" := Frontend.JNum(reply.userId.value)])
    else if reply.token.Some? then
      Frontend.ObjectDoc(message["token" := Frontend.JStr(reply.token.value)])
    else Frontend.ObjectDoc(message)
  }

  /** Whether the session gate lets the token of a successful login through at
      `later`. */
  predicate Passes(o: Accounts.AuthOutcome, later: int)
    requires o.reply.token.Some?
  {
    VerifySessionToken(TokenCookie(o.reply.token.value), o.accounts.sessions, later) == Forward
  }

  /** A login through the BFF, with the two processes' clocks kept apart. The
      API stamps the session with its own clock, `apiNow` (UTC). The BFF stamps
      the cookie with its naive local clock, which is its UTC reading `bffNow`
      plus the host's offset `utcOffset`, and the browser takes that stamp as
      UTC. The cookie carries the token the API stored, and the session passes
      the gate until a day after `apiNow`. The cookie is still live at every
      moment the session passes exactly when the local stamp is not behind
      `apiNow`; the session passes for the cookie's whole life exactly when the
      local stamp is not ahead of it. So the two run out together only when the
      stamps are equal. */
  lemma {:induction false} LoginCookieAndSessionExpiry(form: Form, c: Accounts.Credentials, pattern: string -> bool,
                                                       acc: Accounts.Accounts, compare: Accounts.CompareResult,
                                                       entropy: seq<byte>, apiNow: int, bffNow: int, utcOffset: int)
    requires |entropy| == 32
    requires FormGet(form, "email") == Some(c.email) && FormGet(form, "password") == Some(c.password)
    requires Accounts.LoginUser(Some(c), pattern, acc, compare, Some(entropy), apiNow, None).reply.status == OK
    ensures
      var o := Accounts.LoginUser(Some(c), pattern, acc, compare, Some(entropy), apiNow, None);
      var x := FrontendAuth.Login(Post, form, [Frontend.Reply(o.reply.status, LoginDoc(o.reply))], bffNow + utcOffset);
      && x.response.Redirect? && x.response.cookie.Some?
      && x.response.cookie.value.value == Frontend.JStr(o.reply.token.value)
      && x.response.cookie.value.expires == bffNow + utcOffset + FrontendAuth.CookieLifetime
      && (forall later :: Passes(o, later) <==> later <= apiNow + SessionLifetime)
      && ((forall later :: Passes(o, later) ==> later <= x.response.cookie.value.expires)
            <==> apiNow <= bffNow + utcOffset)
      && ((forall later :: later <= x.response.cookie.value.expires ==> Passes(o, later))
            <==> bffNow + utcOffset <= apiNow)
  {
    var o := Accounts.LoginUser(Some(c), pattern, acc, compare, Some(entropy), apiNow, None);
    var expires := bffNow + utcOffset + FrontendAuth.CookieLifetime;
    forall later ensures Passes(o, later) <==> later <= apiNow + SessionLifetime {
      Accounts.LoginThenVerify(c, pattern, acc, compare, entropy, apiNow, later);
    }
    assert FrontendAuth.CookieLifetime == SessionLifetime;
    if bffNow + utcOffset < apiNow {
      // the session still passes a moment after the cookie has run out
      assert Passes(o, apiNow + SessionLifetime);
    }
    if apiNow < bffNow + utcOffset {
      // the cookie is still sent a moment after the session has run out
      assert !Passes(o, expires);
    }
  }

  /** A login the API refuses as unknown re-renders the login form with the
      API's message. */
  lemma UnknownUserSeesMessage(form: Form, c: Accounts.Credentials, pattern: string -> bool, acc: Accounts.Accounts,
                               compare: Accounts.CompareResult, entropy: seq<byte>, now: int)
    requires |entropy| == 32
    requires Accounts.ValidCredentials(pattern, c) && c.email !in acc.users
    ensures
      var o := Accounts.LoginUser(Some(c), pattern, acc, compare, Some(entropy), now, None);
      FrontendAuth.Login(Post, form, [Frontend.Reply(o.reply.status, LoginDoc(o.reply))], now).response
        == Frontend.Page("login.html", Some(Frontend.JStr("User doesn't exist!")))
  {
  }

  /** The path the API's router registers for SignupUser, as written. */
  const RegisteredSignupPath: string := "/singup"

  /** The path the BFF posts sign-ups to, which the router was meant to
      register. */
  const IntendedSignupPath: string := "/signup"

  /** The credentials the API decodes from the BFF's credentials document; a
      null field leaves the string empty. */
  function DecodedCredentials(p: Frontend.Payload): Accounts.Credentials
    requires p.CredentialsJson?
  {
    Accounts.Credentials(OrEmpty(p.email), OrEmpty(p.password))
  }

  /** The API serving one sign-up call, router included, when the router
      registers SignupUser under `registered`: the reply and the accounts
      afterwards. A call to any other path gets the router's plain-text 404 and
      leaves the accounts alone. */
  function ServeSignup(registered: string, call: Frontend.Call, pattern: string -> bool,
                       acc: Accounts.Accounts, hashed: Option<string>): (r: (Frontend.Reply, Accounts.Accounts))
    requires call.payload.CredentialsJson?
    ensures call.path != registered ==> r == (Frontend.Reply(NotFound, Frontend.NotJson), acc)
    ensures call.path == registered ==>
      var c := DecodedCredentials(call.payload);
      && r.0.doc.ObjectDoc? && "message" in r.0.doc.fields
      && (r.0.status == Created <==>
            Accounts.ValidCredentials(pattern, c) && Accounts.ExistingUserId(acc, c.email) == 0 && hashed.Some?)
      && (r.0.status != Created ==> r.1 == acc)
      && (r.0.status == Created ==>
            r.1.users == acc.users[c.email := Accounts.UserRow(acc.nextUserId, hashed.value)])
  {
    if call.path != registered then (Frontend.Reply(NotFound, Frontend.NotJson), acc)
    else
      var o := Accounts.SignupUser(Some(DecodedCredentials(call.payload)), pattern, acc, hashed, None);
      (Frontend.Reply(o.reply.status, LoginDoc(o.reply)), o.accounts)
  }

  /** Sign-up through the BFF against the router as written: the BFF posts to
      "/signup" but the router only knows "/singup", so every sign-up gets the
      router's 404, the BFF reports that it could not reach the API, and no
      account is ever created. */
  lemma SignupNeverReachesApi(form: Form, pattern: string -> bool, acc: Accounts.Accounts, hashed: Option<string>)
    ensures
      var served := ServeSignup(RegisteredSignupPath, FrontendAuth.CredentialsCall("/signup", form), pattern, acc, hashed);
      && served.1 == acc
      && FrontendAuth.Signup(Post, form, [served.0]).response
           == Frontend.JsonReply(InternalServerError, None,
                                 Some(Frontend.Value(Frontend.JStr("Failed to connect to the external API"))))
  {
  }

  /** Sign-up through the BFF with the route registered as the BFF calls it:
      the user is sent to the login page exactly when the API registered the
      address, and then the address is registered; otherwise the accounts do
      not change. */
  lemma SignupThroughIntendedRoute(form: Form, pattern: string -> bool, acc: Accounts.Accounts, hashed: Option<string>)
    ensures
      var call := FrontendAuth.CredentialsCall("/signup", form);
      var c := DecodedCredentials(call.payload);
      var served := ServeSignup(IntendedSignupPath, call, pattern, acc, hashed);
      var x := FrontendAuth.Signup(Post, form, [served.0]);
      && (x.response == Frontend.Redirect("/login", None) <==>
            Accounts.ValidCredentials(pattern, c) && Accounts.ExistingUserId(acc, c.email) == 0 && hashed.Some?)
      && (x.response.Redirect? ==> c.email in served.1.users)
      && (!x.response.Redirect? ==> served.1 == acc)
  {
  }

  /** Signing up an address that is already registered, through the intended
      route, re-renders the sign-up form with the API's message; the accounts
      do not change. */
  lemma DuplicateSignupSeesMessage(form: Form, pattern: string -> bool, acc: Accounts.Accounts, hashed: Option<string>)
    requires var c := DecodedCredentials(FrontendAuth.CredentialsCall("/signup", form).payload);
             Accounts.ValidCredentials(pattern, c) && Accounts.ExistingUserId(acc, c.email) != 0
    ensures
      var served := ServeSignup(IntendedSignupPath, FrontendAuth.CredentialsCall("/signup", form), pattern, acc, hashed);
      && served.1 == acc
      && FrontendAuth.Signup(Post, form, [served.0]).response
           == Frontend.Page("sign_up.html", Some(Frontend.JStr("Email already in use")))
  {
  }

  /** The cookie a logout leaves behind never passes the session gate. A
      browser drops a cookie that expired at the epoch, so the next request
      carries no token and is refused as unauthorized; a client that sends the
      empty value anyway is refused as an unknown session. */
  lemma LogoutCookieRejected(acc: Accounts.Accounts, now: int)
    requires Accounts.TokensWellFormed(acc)
    ensures
      var cookie := FrontendAuth.Logout().response.cookie.value;
      && cookie.value == Frontend.JStr("") && cookie.expires == 0
      && VerifySessionToken(NoCookie, acc.sessions, now) == Reject(Unauthorized, "Unauthorized access")
      && VerifySessionToken(TokenCookie(cookie.value.s), acc.sessions, now) == Reject(Unauthorized, "Invalid session token")
  {
    Accounts.EmptyTokenRejected(acc, now);
  }
}

=== FILE: invariants.dfy ===
/** What the store keeps true across handlers: the AUTO_INCREMENT bookkeeping
    and the rule that every book's author exists. */
module Invariants {

  import opened Optional
  import opened Http
  import opened Decimal
  import opened Library
  import opened Borrowing
  import opened Catalog

  /** DeleteAuthor never leaves a book pointing at a missing author, whatever
      statement fails: it refuses an author who still has books. */
  lemma DeleteAuthorKeepsIntegrity(verb: Method, idText: string, s: Store, fault: Fault)
    requires ReferentiallyIntact(s)
    ensures ReferentiallyIntact(DeleteAuthor(verb, idText, s, fault).store)
  {
    var ra := DeleteAuthor(verb, idText, s, fault);
    if ra.status == OK {
      var id := ParseInt(idText).value;
      forall b | b in ra.store.books ensures ra.store.books[b].authorId in ra.store.authors {
        assert b !in BooksOf(s, id, None);
      }
    }
  }

  /** DeleteBook never leaves a book pointing at a missing author, whatever
      statement fails: it removes the author only when no other book names it. */
  lemma DeleteBookKeepsIntegrity(verb: Method, idText: string, s: Store, fault: Fault)
    requires ReferentiallyIntact(s)
    ensures ReferentiallyIntact(DeleteBook(verb, idText, s, fault).store)
  {
    var rb := DeleteBook(verb, idText, s, fault);
    if rb.status == OK {
      var id := ParseInt(idText).value;
      var author := s.books[id].authorId;
      forall b | b in rb.store.books ensures rb.store.books[b].authorId in rb.store.authors {
        assert b in s.books && b != id;
        assert b !in BooksOf(s, author, Some(id)) || BooksOf(s, author, Some(id)) != {};
      }
    }
  }

  /** DeleteSubscriber touches neither books nor authors. */
  lemma DeleteSubscriberKeepsIntegrity(verb: Method, idText: string, s: Store, fault: Fault)
    requires ReferentiallyIntact(s)
    ensures ReferentiallyIntact(DeleteSubscriber(verb, idText, s, fault).store)
  {
  }

  /** A new or rewritten book keeps the store intact exactly when the author it
      names exists: neither handler checks this itself. */
  lemma BookWritesKeepIntegrityIffAuthorExists(variant: Variant, verb: Method, idText: string, body: Book, s: Store, fault: Fault)
    requires variant != Prototype
    requires ReferentiallyIntact(s)
    ensures AddBook(variant, verb, Some(body), s, fault).status in {Created, OK} ==>
      (ReferentiallyIntact(AddBook(variant, verb, Some(body), s, fault).store) <==> body.authorId in s.authors)
    ensures UpdateBook(verb, idText, Some(body), s, fault).status == OK ==>
      (ReferentiallyIntact(UpdateBook(verb, idText, Some(body), s, fault).store) <==> body.authorId in s.authors)
  {
    var ra := AddBook(variant, verb, Some(body), s, fault);
    if ra.status in {Created, OK} {
      assert ra.store.books[s.nextBookId].authorId == body.authorId;
    }
    var ru := UpdateBook(verb, idText, Some(body), s, fault);
    if ru.status == OK {
      assert ru.store.books[ParseInt(idText).value].authorId == body.authorId;
    }
  }

  /** AddAuthor takes the next author id, which is not in use, and keeps the
      AUTO_INCREMENT bookkeeping. */
  lemma AddAuthorKeepsIdsIssued(variant: Variant, verb: Method, a: Option<Author>, s: Store, fault: Fault)
    requires variant != Prototype
    requires IdsIssued(s)
    ensures var r := AddAuthor(variant, verb, a, s, fault);
            IdsIssued(r.store) && (r.body.NewId? ==> r.body.id !in s.authors && r.body.id in r.store.authors)
  {
    var r := AddAuthor(variant, verb, a, s, fault);
    if r.status in {Created, OK} {
      forall id | id in r.store.authors ensures 1 <= id < r.store.nextAuthorId {
        assert id in s.authors || id == s.nextAuthorId;
      }
    }
  }

  /** AddBook takes the next book id, which is not in use. */
  lemma AddBookKeepsIdsIssued(variant: Variant, verb: Method, b: Option<Book>, s: Store, fault: Fault)
    requires variant != Prototype
    requires IdsIssued(s)
    ensures var r := AddBook(variant, verb, b, s, fault);
            IdsIssued(r.store) && (r.body.NewId? ==> r.body.id !in s.books && r.body.id in r.store.books)
  {
    var r := AddBook(variant, verb, b, s, fault);
    if r.status in {Created, OK} {
      forall id | id in r.store.books ensures 1 <= id < r.store.nextBookId {
        assert id in s.books || id == s.nextBookId;
      }
    }
  }

  /** AddSubscriber takes the next subscriber id, which is not in use. */
  lemma AddSubscriberKeepsIdsIssued(verb: Method, sub: Option<Subscriber>, s: Store, fault: Fault)
    requires IdsIssued(s)
    ensures var r := AddSubscriber(verb, sub, s, fault);
            IdsIssued(r.store) && (r.body.NewId? ==> r.body.id !in s.subscribers && r.body.id in r.store.subscribers)
  {
    var r := AddSubscriber(verb, sub, s, fault);
    if r.status == OK {
      forall id | id in r.store.subscribers ensures 1 <= id < r.store.nextSubscriberId {
        assert id in s.subscribers || id == s.nextSubscriberId;
      }
    }
  }

  /** After a successful DeleteBook the book's author is gone exactly when it
      had no other book. */
  lemma DeleteBookCascade(verb: Method, idText: string, s: Store, fault: Fault)
    requires DeleteBook(verb, idText, s, fault).status == OK
    ensures var id := ParseInt(idText).value;
            var author := s.books[id].authorId;
            author in DeleteBook(verb, idText, s, fault).store.authors <==>
              author in s.authors && exists other :: other in s.books && other != id && s.books[other].authorId == author
  {
    var id := ParseInt(idText).value;
    var author := s.books[id].authorId;
    BooksOfNonEmpty(s, author, Some(id));
  }

  /** DeleteBook never answers 404: the book was read by statement 0, so its
      DELETE always removes a row. A missing book is a 500. */
  lemma DeleteBookNeverNotFound(verb: Method, idText: string, s: Store, fault: Fault)
    ensures DeleteBook(verb, idText, s, fault).status != NotFound
    ensures verb == Delete && ParseInt(idText).Some? && ParseInt(idText).value !in s.books ==>
      DeleteBook(verb, idText, s, fault).status == InternalServerError
  {
  }

  /** Sending the same update twice: the second finds nothing to change, so it
      is answered 404 although the row exists. */
  lemma RepeatedUpdateIsNotFound(verb: Method, idText: string, body: Author, s: Store)
    requires UpdateAuthor(verb, idText, Some(body), s, None).status == OK
    ensures var once := UpdateAuthor(verb, idText, Some(body), s, None).store;
            var twice := UpdateAuthor(verb, idText, Some(body), once, None);
            && twice.status == NotFound && twice.store == once
            && ParseInt(idText).value in once.authors
  {
  }

  /** The same for subscribers: an identical second update changes no row and
      is answered 404. */
  lemma RepeatedSubscriberUpdateIsNotFound(verb: Method, idText: string, body: Subscriber, s: Store)
    requires UpdateSubscriber(verb, idText, Some(body), s, None).status == OK
    ensures var once := UpdateSubscriber(verb, idText, Some(body), s, None).store;
            var twice := UpdateSubscriber(verb, idText, Some(body), once, None);
            && twice.status == NotFound && twice.store == once
            && ParseInt(idText).value in once.subscribers && once.subscribers[ParseInt(idText).value] == body
  {
  }

  /** UpdateSubscriber only overwrites a row that exists, so it keeps the id
      bookkeeping and the books' references, whatever the outcome. */
  lemma UpdateSubscriberKeepsInvariants(verb: Method, idText: string, body: Option<Subscriber>, s: Store, fault: Fault)
    requires IdsIssued(s) && ReferentiallyIntact(s)
    ensures var r := UpdateSubscriber(verb, idText, body, s, fault);
            IdsIssued(r.store) && ReferentiallyIntact(r.store)
            && r.store.subscribers.Keys == s.subscribers.Keys
  {
  }

  /** Adding an author and deleting it again by its new id restores every table
      (only the id counter has moved on). */
  lemma AddThenDeleteAuthor(body: Author, s: Store)
    requires IdsIssued(s) && ReferentiallyIntact(s) && AuthorComplete(body)
    requires s.nextAuthorId <= Int64Max
    ensures var added := AddAuthor(Current, Post, Some(body), s, None);
            var gone := DeleteAuthor(Delete, IntToString(s.nextAuthorId), added.store, None);
            && gone.status == OK
            && gone.store == s.(nextAuthorId := s.nextAuthorId + 1)
  {
    var id := s.nextAuthorId;
    var added := AddAuthor(Current, Post, Some(body), s, None);
    ParseIntOfIntToString(id);
    assert id !in s.authors;
    assert BooksOf(added.store, id, None) == {} by {
      forall b | b in added.store.books ensures added.store.books[b].authorId != id {
        assert added.store.books[b].authorId in s.authors;
      }
    }
    assert added.store.authors - {id} == s.authors;
  }
}

=== FILE: library.dfy ===
/** The library database the Go API works on, as an abstract store: one map per
    table keyed by the AUTO_INCREMENT id, the borrow log as a sequence of rows,
    and the next id each table will hand out. */
module Library {

  import opened Optional

  datatype Author = Author(firstname: string, lastname: string, photo: string)

  datatype Book = Book(title: string, authorId: int, photo: string, isBorrowed: bool, details: string)

  datatype Subscriber = Subscriber(firstname: string, lastname: string, email: string)

  /** A row of borrowed_books; `returnedAt` is the nullable return_date column. */
  datatype BorrowRecord = BorrowRecord(subscriberId: int, bookId: int, borrowedAt: int, returnedAt: Option<int>)

  datatype Store = Store(
    authors: map<int, Author>,
    books: map<int, Book>,
    subscribers: map<int, Subscriber>,
    borrows: seq<BorrowRecord>,
    nextAuthorId: int,
    nextBookId: int,
    nextSubscriberId: int)

  /** Which version of the API is answering: api/main.go, api/server_API.go, or
      the root-level server_API.go prototype. */
  datatype Variant = Current | Earlier | Prototype

  /** The SQL statement (numbered from 0 in the order a handler issues them) on
      which the database driver reports an error, if any. */
  type Fault = Option<nat>

  predicate FailsAt(fault: Fault, step: nat) {
    fault == Some(step)
  }

  /** AUTO_INCREMENT bookkeeping: ids start at 1 and every id in use is below the
      next one to be issued. */
  predicate IdsIssued(s: Store) {
    && 1 <= s.nextAuthorId && 1 <= s.nextBookId && 1 <= s.nextSubscriberId
    && (forall id :: id in s.authors ==> 1 <= id < s.nextAuthorId)
    && (forall id :: id in s.books ==> 1 <= id < s.nextBookId)
    && (forall id :: id in s.subscribers ==> 1 <= id < s.nextSubscriberId)
  }

  /** Every book names an author that exists. */
  predicate ReferentiallyIntact(s: Store) {
    forall id :: id in s.books ==> s.books[id].authorId in s.authors
  }

  /** The ids of the books written by `authorId`, leaving out `exceptBook`. */
  function BooksOf(s: Store, authorId: int, exceptBook: Option<int>): (ids: set<int>)
    ensures forall id :: id in ids <==>
      id in s.books && s.books[id].authorId == authorId && Some(id) != exceptBook
  {
    set id | id in s.books && s.books[id].authorId == authorId && Some(id) != exceptBook
  }

  /** The author has a book other than `exceptBook` exactly when that set is non-empty. */
  lemma BooksOfNonEmpty(s: Store, authorId: int, exceptBook: Option<int>)
    ensures BooksOf(s, authorId, exceptBook) != {} <==>
      exists id :: id in s.books && s.books[id].authorId == authorId && Some(id) != exceptBook
  {
    var ids := BooksOf(s, authorId, exceptBook);
    if !exists id :: id in s.books && s.books[id].authorId == authorId && Some(id) != exceptBook {
      assert forall id :: id !in ids;
      assert ids == {};
    }
  }

  /** Sets the return date on every borrow row of this subscriber and book. */
  function MarkReturned(log: seq<BorrowRecord>, subscriberId: int, bookId: int, now: int): (r: seq<BorrowRecord>)
    ensures |r| == |log|
    ensures forall i :: 0 <= i < |log| ==>
      r[i] == if log[i].subscriberId == subscriberId && log[i].bookId == bookId
              then log[i].(returnedAt := Some(now)) else log[i]
  {
    seq(|log|, i requires 0 <= i < |log| =>
      if log[i].subscriberId == subscriberId && log[i].bookId == bookId
      then log[i].(returnedAt := Some(now)) else log[i])
  }

  /** A row of the borrow log that has not been returned yet. */
  predicate OpenBorrow(log: seq<BorrowRecord>, subscriberId: int, bookId: int) {
    exists i :: 0 <= i < |log| && log[i].subscriberId == subscriberId && log[i].bookId == bookId && log[i].returnedAt.None?
  }

  /** One row of the books-join-authors query the lookup handlers answer with. */
  datatype BookAuthorInfo = BookAuthorInfo(
    bookId: int, bookTitle: string, authorId: int, bookPhoto: string,
    isBorrowed: bool, bookDetails: string, authorLastname: string, authorFirstname: string)

  /** What a handler writes as its response body. */
  datatype ApiBody =
    | Message(text: string)          // a fixed text, success or error
    | JsonMessage(text: string)      // {"message": text}
    | DbError                        // the text of an error the database driver returned
    | PrefixedDbError(prefix: string)  // a fixed prefix, then that error's text
    | NewId(id: int)                 // {"id": n} after an INSERT
    | BookFound(info: BookAuthorInfo)
    | Uploaded(path: string)         // "File uploaded successfully: <path>"

  /** A handler's response status and body, and the database after it ran. */
  datatype Outcome = Outcome(status: int, body: ApiBody, store: Store)

  /** Only the books table and the borrow log may differ. */
  predicate OnlyBooksAndLogDiffer(s: Store, t: Store) {
    && t.authors == s.authors && t.subscribers == s.subscribers
    && t.nextAuthorId == s.nextAuthorId && t.nextBookId == s.nextBookId
    && t.nextSubscriberId == s.nextSubscriberId
  }
}

=== FILE: lookup.dfy ===
/** Reading one book with its author (GET /books/{id}): GetBookByID in the
    current and earlier API, GetBooksById in the prototype. The query joins books
    with authors, so a book whose author row is missing is not found either. */
module Lookup {

  import opened Optional
  import opened Http
  import opened Decimal
  import opened Library
  import opened Catalog

  /** The joined row for a book and its author. */
  function JoinedRow(s: Store, bookId: int): (info: BookAuthorInfo)
    requires bookId in s.books && s.books[bookId].authorId in s.authors
    ensures info.bookId == bookId && info.authorId == s.books[bookId].authorId
  {
    var b := s.books[bookId];
    var a := s.authors[b.authorId];
    BookAuthorInfo(bookId, b.title, b.authorId, b.photo, b.isBorrowed, b.details, a.lastname, a.firstname)
  }

  /** Whether the join has a row for this book id. */
  predicate Joined(s: Store, bookId: int) {
    bookId in s.books && s.books[bookId].authorId in s.authors
  }

  /** GetBookByID: the id (from the path in the current API, from the book_id
      query parameter in the earlier one) must read as a number; statement 0 is
      the query. The store is only read. */
  function GetBookByID(idText: string, s: Store, fault: Fault): (r: Outcome)
    ensures r.store == s
    ensures r.status in {OK, BadRequest, NotFound, InternalServerError}
    ensures r.status == BadRequest <==> ParseInt(idText).None?
    ensures r.status == InternalServerError <==> ParseInt(idText).Some? && FailsAt(fault, 0)
    ensures r.status == OK <==> ParseInt(idText).Some? && !FailsAt(fault, 0) && Joined(s, ParseInt(idText).value)
    ensures r.status == OK ==>
      var id := ParseInt(idText).value;
      var b := s.books[id];
      var a := s.authors[b.authorId];
      r.body == BookFound(BookAuthorInfo(id, b.title, b.authorId, b.photo, b.isBorrowed, b.details, a.lastname, a.firstname))
  {
    var id := ParseInt(idText);
    if id.None? then Outcome(BadRequest, Message("Invalid book ID"), s)
    else if FailsAt(fault, 0) then Outcome(InternalServerError, DbError, s)
    else if !Joined(s, id.value) then Outcome(NotFound, Message("Book not found"), s)
    else Outcome(OK, BookFound(JoinedRow(s, id.value)), s)
  }

  /** The prototype's GetBooksById passes the book_id text to the database
      unparsed, so it never answers 400; `coerce` is how the database turns
      that text into the id it compares with (None when it matches no id). */
  function GetBooksById(idText: string, coerce: string -> Option<int>, s: Store, fault: Fault): (r: Outcome)
    ensures r.store == s
    ensures r.status in {OK, NotFound, InternalServerError}
    ensures r.status == InternalServerError <==> FailsAt(fault, 0)
    ensures r.status == OK <==> !FailsAt(fault, 0) && coerce(idText).Some? && Joined(s, coerce(idText).value)
    ensures r.status == OK ==> r.body.BookFound? && r.body.info.bookId == coerce(idText).value
  {
    var key := coerce(idText);
    if FailsAt(fault, 0) then Outcome(InternalServerError, DbError, s)
    else if key.None? || !Joined(s, key.value) then Outcome(NotFound, Message("Book not found"), s)
    else Outcome(OK, BookFound(JoinedRow(s, key.value)), s)
  }

  /** When the database reads the text as the number Atoi reads, the prototype
      and the later handler answer alike. */
  lemma LookupVariantsAgree(idText: string, coerce: string -> Option<int>, s: Store, fault: Fault)
    requires ParseInt(idText).Some? && coerce(idText) == ParseInt(idText)
    ensures GetBooksById(idText, coerce, s, fault) == GetBookByID(idText, s, fault)
  {
  }

  /** A book that AddBook stores for an existing author reads back under its
      new id with the stored fields (the photo still empty) and the author's names. */
  lemma AddedBookReadsBack(b: Book, s: Store)
    requires IdsIssued(s) && BookComplete(b) && b.authorId in s.authors
    requires s.nextBookId <= Int64Max
    ensures var added := AddBook(Current, Post, Some(b), s, None);
            var r := GetBookByID(IntToString(s.nextBookId), added.store, None);
            var a := s.authors[b.authorId];
            && r.status == OK
            && r.body == BookFound(BookAuthorInfo(s.nextBookId, b.title, b.authorId, "", b.isBorrowed, b.details,
                                                  a.lastname, a.firstname))
  {
    ParseIntOfIntToString(s.nextBookId);
  }
}

=== FILE: optional.dfy ===
/** The conventional optional-value datatype, shared by every module of the model. */
module Optional {

  datatype Option<+T> = None | Some(value: T)
}

=== FILE: paths.dfy ===
/** Where the API stores uploaded photos (AddAuthorPhoto / AddBookPhoto). */
module PhotoPaths {

  import opened Decimal

  /** Go's filepath.Ext on a slash-separated path: the suffix beginning at the
      final '.' of the final path element, or "" when that element has no '.'. */
  function Ext(path: string): (e: string)
    ensures |e| <= |path| && e == path[|path| - |e|..]
    ensures e != "" ==> e[0] == '.'
    ensures forall i :: 0 <= i < |e| ==> e[i] != '/'
    ensures forall i :: 1 <= i < |e| ==> e[i] != '.'
    ensures e == "" ==> forall k :: 0 <= k < |path| && path[k] == '.' ==> '/' in path[k..]
  {
    ExtBefore(path, |path|)
  }

  /** The backwards scan of filepath.Ext, at the point where the positions from
      `end` on have been passed over (they hold neither '.' nor '/'). */
  function ExtBefore(path: string, end: nat): (e: string)
    requires end <= |path|
    requires forall j :: end <= j < |path| ==> path[j] != '/' && path[j] != '.'
    ensures |e| <= |path| && e == path[|path| - |e|..]
    ensures e != "" ==> e[0] == '.'
    ensures forall i :: 0 <= i < |e| ==> e[i] != '/'
    ensures forall i :: 1 <= i < |e| ==> e[i] != '.'
    ensures e == "" ==> forall k :: 0 <= k < end && path[k] == '.' ==> '/' in path[k..end]
    decreases end
  {
    if end == 0 then ""
    else if path[end - 1] == '/' then
      assert forall k :: 0 <= k < end ==> path[k..end][end - 1 - k] == '/';
      ""
    else if path[end - 1] == '.' then path[end - 1..]
    else
      var e := ExtBefore(path, end - 1);
      assert forall k :: 0 <= k < end - 1 ==> path[k..end] == path[k..end - 1] + [path[end - 1]];
      e
  }

  const AuthorPhotoRoot: string := "./upload/"
  const BookPhotoRoot: string := "./upload/books/"

  /** The directory AddBookPhoto creates for a book. */
  function BookPhotoDir(bookId: int): string {
    BookPhotoRoot + IntToString(bookId) + "/"
  }

  /** AddBookPhoto's target: "fullsize" plus the extension of the client's file name,
      directly inside the book's own directory. */
  function BookPhotoPath(bookId: int, filename: string): (p: string)
    ensures |BookPhotoDir(bookId)| < |p| && p[..|BookPhotoDir(bookId)|] == BookPhotoDir(bookId)
    ensures p[|BookPhotoDir(bookId)|..] == "fullsize" + Ext(filename)
    ensures '/' !in p[|BookPhotoDir(bookId)|..]
  {
    NoSeparatorAfterFullsize(Ext(filename));
    SplitAt(BookPhotoDir(bookId), "fullsize" + Ext(filename));
    BookPhotoDir(bookId) + ("fullsize" + Ext(filename))
  }

  /** A concatenation splits back into its two parts. */
  lemma SplitAt(a: string, b: string)
    ensures (a + b)[..|a|] == a && (a + b)[|a|..] == b
  {
  }

  /** "fullsize" followed by an extension holds no '/'. */
  lemma NoSeparatorAfterFullsize(e: string)
    requires forall i :: 0 <= i < |e| ==> e[i] != '/'
    ensures '/' !in "fullsize" + e
  {
    var name := "fullsize" + e;
    assert forall i :: 0 <= i < |e| ==> name[8 + i] == e[i];
  }

  /** AddAuthorPhoto's target: the client's file name is ignored and the extension
      is always that of the fixed name "fullsize.jpg". */
  function AuthorPhotoPath(authorId: int): (p: string)
    ensures p == AuthorPhotoRoot + IntToString(authorId) + "/fullsize.jpg"
  {
    ExtOfFullsizeJpg();
    AuthorPhotoRoot + IntToString(authorId) + "/fullsize" + Ext("fullsize.jpg")
  }

  lemma ExtOfFullsizeJpg()
    ensures Ext("fullsize.jpg") == ".jpg"
  {
    var p := "fullsize.jpg";
    assert p[11] == 'g' && p[10] == 'p' && p[9] == 'j' && p[8] == '.';
    assert p[8..] == ".jpg";
    assert ExtBefore(p, 9) == ".jpg";
    assert ExtBefore(p, 12) == ".jpg";
  }

  lemma ExtOfTestJpg()
    ensures Ext("test.jpg") == ".jpg"
  {
    var p := "test.jpg";
    assert p[7] == 'g' && p[6] == 'p' && p[5] == 'j' && p[4] == '.';
    assert p[4..] == ".jpg";
    assert ExtBefore(p, 5) == ".jpg";
  }

  /** The example the API's own test uses. */
  lemma BookPhotoPathExample()
    ensures BookPhotoPath(1, "test.jpg") == "./upload/books/1/fullsize.jpg"
  {
    ExtOfTestJpg();
    assert IntToString(1) == "1";
    assert BookPhotoDir(1) == "./upload/books/1/";
    assert BookPhotoPath(1, "test.jpg") == "./upload/books/1/" + ("fullsize" + ".jpg");
  }

  /** Two strings free of '/' that are followed by '/' and agree from there on
      must be equal: the first separator fixes where each ends. */
  lemma SeparatedPrefixesEqual(a: string, x: string, b: string, y: string)
    requires '/' !in a && '/' !in b
    requires a + "/" + x == b + "/" + y
    ensures a == b
  {
    var u := a + "/" + x;
    assert u[|a|] == '/' && forall k :: 0 <= k < |a| ==> u[k] == a[k];
    assert u[|b|] == '/' && forall k :: 0 <= k < |b| ==> u[k] == b[k];
    assert |a| == |b|;
    assert a == u[..|a|];
  }

  /** Below the fixed root, a book photo path is the book's number, a '/', and the file name. */
  lemma BookPhotoPathBelowRoot(i: int, f: string)
    ensures BookPhotoPath(i, f)[|BookPhotoRoot|..] == IntToString(i) + "/" + ("fullsize" + Ext(f))
  {
    var d := IntToString(i);
    var x := "fullsize" + Ext(f);
    assert BookPhotoPath(i, f) == BookPhotoRoot + (d + "/" + x);
  }

  /** Distinct books get distinct photo directories, so one book's upload never
      overwrites another's. */
  lemma BookPhotoDirsDistinct(i: int, j: int, f: string, g: string)
    requires Int64Min <= i <= Int64Max && Int64Min <= j <= Int64Max
    requires BookPhotoPath(i, f) == BookPhotoPath(j, g)
    ensures i == j
  {
    BookPhotoPathBelowRoot(i, f);
    BookPhotoPathBelowRoot(j, g);
    IntToStringHasNoSeparator(i);
    IntToStringHasNoSeparator(j);
    SeparatedPrefixesEqual(IntToString(i), "fullsize" + Ext(f), IntToString(j), "fullsize" + Ext(g));
    IntToStringInjective(i, j);
  }

  /** An author's photo never lands on a book's photo: the author directory is a
      number, never the "books" directory. */
  lemma AuthorAndBookPhotosDisjoint(authorId: int, bookId: int, filename: string)
    ensures AuthorPhotoPath(authorId) != BookPhotoPath(bookId, filename)
  {
    var a := AuthorPhotoPath(authorId);
    var b := BookPhotoPath(bookId, filename);
    var s := IntToString(authorId);
    assert a[9] == s[0];
    assert b[..|BookPhotoDir(bookId)|] == BookPhotoDir(bookId);
    assert b[9] == 'b';
  }
}

=== FILE: sessions.dfy ===
/** The API's in-memory session store and the session gate placed in front of
    protected handlers. Times are whole seconds since the Unix epoch. */
module Sessions {

  import opened Optional
  import opened Http
  import opened Base64Url

  datatype Session = Session(userId: int, expiresAt: int)

  /** Go's zero time.Time (0001-01-01 00:00:00 UTC), in seconds since the epoch. */
  const ZeroTime: int := -62135596800

  /** What a map lookup of a missing token yields: the zero Session. */
  const NoSession: Session := Session(0, ZeroTime)

  /** A session lasts 1440 minutes. */
  const SessionLifetime: int := 1440 * 60

  type SessionStore = map<string, Session>

  /** SessionStore.Add: the token now maps to this session, replacing any earlier one. */
  function Add(store: SessionStore, token: string, session: Session): (r: SessionStore)
    ensures token in r && r[token] == session
    ensures forall t :: t != token ==> (t in r <==> t in store)
    ensures forall t :: t in store && t != token ==> r[t] == store[t]
  {
    store[token := session]
  }

  /** SessionStore.Get: the session and true, or the zero session and false. */
  function Get(store: SessionStore, token: string): (r: (Session, bool))
    ensures r.1 <==> token in store
    ensures r.0 == if token in store then store[token] else NoSession
  {
    if token in store then (store[token], true) else (NoSession, false)
  }

  lemma GetAfterAdd(store: SessionStore, token: string, session: Session)
    ensures Get(Add(store, token, session), token) == (session, true)
  {
  }

  /** Adding twice under one token keeps only the second session. */
  lemma AddOverwrites(store: SessionStore, token: string, first: Session, second: Session)
    ensures Add(Add(store, token, first), token, second) == Add(store, token, second)
  {
  }

  /** A token that was never added is not found, whatever else was added. */
  lemma GetNeverAdded(store: SessionStore, token: string, other: string, session: Session)
    requires token !in store && token != other
    ensures Get(Add(store, other, session), token) == (NoSession, false)
  {
  }

  /** The outcome of reading the "token" cookie from a request. */
  datatype CookieLookup =
    | NoCookie                  // http.ErrNoCookie
    | CookieError               // any other error reading it
    | TokenCookie(value: string)

  /** Either the request is answered here, or it goes on to the wrapped handler. */
  datatype Gate = Reject(status: int, message: string) | Forward

  /** VerifySessionToken. A session expiring exactly now still passes: only an
      expiry strictly before now is refused. */
  function VerifySessionToken(cookie: CookieLookup, store: SessionStore, now: int): (g: Gate)
    ensures cookie.NoCookie? ==> g == Reject(Unauthorized, "Unauthorized access")
    ensures cookie.CookieError? ==> g == Reject(BadRequest, "Bad request")
    ensures cookie.TokenCookie? && cookie.value !in store ==> g == Reject(Unauthorized, "Invalid session token")
    ensures g == Reject(Unauthorized, "Session expired") <==>
      cookie.TokenCookie? && cookie.value in store && store[cookie.value].expiresAt < now
    ensures g == Forward <==>
      cookie.TokenCookie? && cookie.value in store && now <= store[cookie.value].expiresAt
  {
    match cookie
    case NoCookie => Reject(Unauthorized, "Unauthorized access")
    case CookieError => Reject(BadRequest, "Bad request")
    case TokenCookie(token) =>
      var (session, found) := Get(store, token);
      if !found then Reject(Unauthorized, "Invalid session token")
      else if session.expiresAt < now then Reject(Unauthorized, "Session expired")
      else Forward
  }

  /** generateSessionToken: 32 bytes from the system's random source (None when
      reading it fails), base64-encoded with the URL-safe alphabet. */
  function GenerateSessionToken(entropy: Option<seq<byte>>): (t: Option<string>)
    requires entropy.Some? ==> |entropy.value| == 32
    ensures t.Some? <==> entropy.Some?
    ensures t.Some? ==> |t.value| == 44 && t.value[43] == '=' && t.value[42] != '='
    ensures t.Some? ==> forall i :: 0 <= i < 44 ==> InAlphabet(t.value[i]) || t.value[i] == '='
  {
    if entropy.None? then None
    else
      EncodeSinglePad(entropy.value);
      Some(Encode(entropy.value))
  }

  /** Different random bytes give different tokens. */
  lemma TokensDistinct(a: seq<byte>, b: seq<byte>)
    requires |a| == 32 && |b| == 32 && a != b
    ensures GenerateSessionToken(Some(a)) != GenerateSessionToken(Some(b))
  {
    if Encode(a) == Encode(b) {
      EncodeInjective(a, b);
    }
  }
}

=== FILE: uploads.dfy ===
/** Photo uploads (POST /author/photo/{id}, POST /books/photo/{id}): the file is
    written below ./upload and its path recorded on the row. The file part is
    the multipart field "file" (None when absent); `diskOk` says whether creating
    the directory, creating the file and copying into it all succeed. Statement
    0 is the UPDATE of the photo column. */
module Uploads {

  import opened Optional
  import opened Http
  import opened Decimal
  import opened Library
  import opened PhotoPaths

  /** The front part both handlers share. Some(status) when the request stops
      before the database is reached. */
  function UploadGate(verb: Method, idText: string, file: Option<string>, diskOk: bool): (stop: Option<int>)
    ensures stop.None? <==> verb == Post && ParseInt(idText).Some? && file.Some? && diskOk
    ensures verb != Post ==> stop == Some(MethodNotAllowed)
    ensures verb == Post && ParseInt(idText).None? ==> stop == Some(BadRequest)
    ensures verb == Post && ParseInt(idText).Some? && !(file.Some? && diskOk) ==> stop == Some(InternalServerError)
  {
    if verb != Post then Some(MethodNotAllowed)
    else if ParseInt(idText).None? then Some(BadRequest)
    else if file.None? || !diskOk then Some(InternalServerError)
    else None
  }

  /** AddAuthorPhoto. The client's file name plays no part in the path. The
      UPDATE is not checked for a matching row, so an unknown id is also 200. */
  function AddAuthorPhoto(verb: Method, idText: string, file: Option<string>, diskOk: bool, s: Store, fault: Fault): (r: Outcome)
    ensures !r.body.BookFound?
    ensures r.status in {OK, BadRequest, MethodNotAllowed, InternalServerError}
    ensures r.status == OK <==> UploadGate(verb, idText, file, diskOk).None? && !FailsAt(fault, 0)
    ensures r.status != OK ==> r.store == s
    ensures r.status == OK ==>
      var id := ParseInt(idText).value;
      && r.body == Uploaded(AuthorPhotoPath(id))
      && r.store.books == s.books && r.store.subscribers == s.subscribers && r.store.borrows == s.borrows
      && r.store.nextAuthorId == s.nextAuthorId && r.store.nextBookId == s.nextBookId
      && r.store.nextSubscriberId == s.nextSubscriberId
      && r.store.authors.Keys == s.authors.Keys
      && (id in s.authors ==> r.store.authors[id] == s.authors[id].(photo := AuthorPhotoPath(id)))
      && (forall other :: other in s.authors && other != id ==> r.store.authors[other] == s.authors[other])
  {
    var stop := UploadGate(verb, idText, file, diskOk);
    if stop.Some? then Outcome(stop.value, Message("Upload refused"), s)
    else if FailsAt(fault, 0) then Outcome(InternalServerError, DbError, s)
    else
      var id := ParseInt(idText).value;
      var path := AuthorPhotoPath(id);
      var t := if id in s.authors then s.(authors := s.authors[id := s.authors[id].(photo := path)]) else s;
      Outcome(OK, Uploaded(path), t)
  }

  /** AddBookPhoto: the path keeps the extension of the client's file name. */
  function AddBookPhoto(verb: Method, idText: string, file: Option<string>, diskOk: bool, s: Store, fault: Fault): (r: Outcome)
    ensures !r.body.BookFound?
    ensures r.status in {OK, BadRequest, MethodNotAllowed, InternalServerError}
    ensures r.status == OK <==> UploadGate(verb, idText, file, diskOk).None? && !FailsAt(fault, 0)
    ensures r.status != OK ==> r.store == s
    ensures r.status == OK ==>
      var id := ParseInt(idText).value;
      && r.body == Uploaded(BookPhotoPath(id, file.value))
      && r.store.authors == s.authors && r.store.subscribers == s.subscribers && r.store.borrows == s.borrows
      && r.store.nextAuthorId == s.nextAuthorId && r.store.nextBookId == s.nextBookId
      && r.store.nextSubscriberId == s.nextSubscriberId
      && r.store.books.Keys == s.books.Keys
      && (id in s.books ==> r.store.books[id] == s.books[id].(photo := BookPhotoPath(id, file.value)))
      && (forall other :: other in s.books && other != id ==> r.store.books[other] == s.books[other])
  {
    var stop := UploadGate(verb, idText, file, diskOk);
    if stop.Some? then Outcome(stop.value, Message("Upload refused"), s)
    else if FailsAt(fault, 0) then Outcome(InternalServerError, DbError, s)
    else
      var id := ParseInt(idText).value;
      var path := BookPhotoPath(id, file.value);
      var t := if id in s.books then s.(books := s.books[id := s.books[id].(photo := path)]) else s;
      Outcome(OK, Uploaded(path), t)
  }

  /** Uploading for a book that does not exist is still answered 200, with the
      path the file was written to, and no row changes. */
  lemma UploadForMissingBookSucceeds(idText: string, filename: string, s: Store)
    requires ParseInt(idText).Some? && ParseInt(idText).value !in s.books
    ensures var r := AddBookPhoto(Post, idText, Some(filename), true, s, None);
            r.status == OK && r.store == s
  {
  }

  /** Two successful book uploads with different ids report different files. */
  lemma BookUploadsDoNotCollide(i: string, j: string, f: string, g: string, s: Store, t: Store)
    requires AddBookPhoto(Post, i, Some(f), true, s, None).status == OK
    requires AddBookPhoto(Post, j, Some(g), true, t, None).status == OK
    requires ParseInt(i) != ParseInt(j)
    ensures AddBookPhoto(Post, i, Some(f), true, s, None).body != AddBookPhoto(Post, j, Some(g), true, t, None).body
  {
    var m := ParseInt(i).value;
    var n := ParseInt(j).value;
    if BookPhotoPath(m, f) == BookPhotoPath(n, g) {
      BookPhotoDirsDistinct(m, n, f, g);
    }
  }
}
